=== FILE: README.md ===
# madeira360 — a Dafny model of the site's routing, localization, attribution and form logic

This project models the core of the madeira360 Next.js site, a bilingual (German/English) travel blog with lead forms and an outbound-offer redirect. Each source file of that core has its own Dafny module:

- **Locales and routing.** `I18n` holds the locale registry. `Middleware` models the per-request decision of `middleware.ts`: pass through, redirect to the default locale, or forward with an `x-lang` header. It also models the `config.matcher` that decides whether the middleware runs at all.
- **Localized paths.** `Content` models the `Blog` document type and its computed `url` and `readingTime` fields. `BlogUtils` models `findRelatedBlogPost`, which matches posts across languages by date and cover. `LocalePath` models two things the related-blog route and the language switcher share: the blog-detail pattern `/\/(de|en)\/blog\/(.+)$/` and the structural locale-segment swap. `RelatedBlog` models the `GET /api/related-blog` handler. `LanguageSwitcher` models the two links the switcher renders, before and after its effect has run.
- **Attribution.** `Utm` models `src/lib/utm.ts`: parsing the query, storing a record under `madeira360_utm` with a 30-day expiry, reading it back, and capturing it on mount.
- **Outbound redirect.** `Redirect` models the in-memory fixed-window rate limiter (60 requests per 60 000 ms per key), `safeUrl`, the rate-limit key, the `retry-after` value, and the order of the checks in the handler.
- **Form routes.** `Email` is the `^[^\s@]+@[^\s@]+\.[^\s@]+$` check that all form routes share. `Subscribers` builds the subscriber record and its `fields` map. `TripPlanningRoute`, `NewsletterRoute` and `TourQuestionRoute` model the three `POST` handlers: the order of their checks, their error codes and length limits, and the record or message each one produces.
- **Client components.** `TripPlanningForm`, `TourFaq` and `TourQuestionForm` are state machines over immutable form states.
- **Sitemap.** `Sitemap` models the base URL and the list of sitemap entries.

The shared helpers are `Optional` and `Strings`. `Optional` holds `Option`, `Result` and JavaScript truthiness of an optional string. `Strings` models JavaScript `split`, `join`, `trim`, the `\s` class, ASCII `toLowerCase`, `replace(/c/g, …)` and `String(n)`.

I/O and platform state are parameters of the model:
- the browser's local storage is a `map`;
- the clock is a `now` argument;
- "is there a `window`" is a `hasWindow` argument;
- the environment variables are `Option<string>` arguments;
- the outcome of a `fetch` is a boolean argument (`ok`, `reachable`).

The model describes what a request *produces*: the subscriber record, the prepared e-mail, the click row, the redirect target. It does not model the calls that send it.

Modelling notes, where the code says something different from what one might expect:
- **Second UTM prefix.** The forms post the stored attribution object, whose keys are already `utm_source`, `utm_medium`, and so on. The trip-planning and newsletter routes prefix every key with `utm_` once more, so the mailing-list field is `utm_utm_source`. The model keeps this; `TripPlanningForm.FormUtmSourceArrivesDoublePrefixed` states it.
- **A stored expiry of 0.** `getStoredUtm` treats `expiresAt: 0` as missing, because it is falsy. It returns `{}` and does *not* remove the entry.
- **Blank `x-forwarded-for`.** A present but blank header gives the rate-limit key `""`, because `??` only skips `null`. The user agent is not used in that case.
- **Unanchored blog pattern.** The blog pattern has no start anchor, so it matches at the leftmost `/de/blog/` or `/en/blog/` anywhere in the path. The capture runs to the end of the input and may not contain a line terminator.
- **Swap idempotence.** The structural swap drops empty segments. It is idempotent only on paths that are already normalized or that start with the current locale segment. `LocalePath.SwapDropsTrailingSlashOnSecondSwap` gives an input where a second swap changes the result.
- **Redirect chains.** When the default locale is `de` or `en`, the middleware never redirects twice in a row on a pathname that starts with `/`, which is every pathname the platform hands it. On other strings it can take two redirects before it forwards. The default locale comes from the environment and is not checked. With an unsupported value such as `fr` the redirects never end: `/` goes to `/fr`, `/fr` to `/fr/fr`, and so on. `Middleware.UnsupportedDefaultNeverSettles` states this.

## Model

| member | source | states |
|---|---|---|
| I18n.IsLocale | madeira360-app/src/lib/i18n.ts:6-8 | a value is a locale exactly when it is `"de"` or `"en"`; the comparison is case-sensitive |
| I18n.DefaultLocale | madeira360-app/src/lib/i18n.ts:4 | the default is the environment value when set (not validated), otherwise `"de"` |
| I18n.LocaleShape | madeira360-app/src/lib/i18n.ts:1 | every locale is a two-character code without `/`, so it forms exactly one path segment |
| I18n.IsLocaleRejectsOtherLengths | madeira360-app/src/lib/i18n.ts:6-8 | the empty string and every string whose length is not 2 are rejected |
| Middleware.Decide | madeira360-app/middleware.ts:6-31 | skipped prefixes pass through; `/` and `""` redirect to `/<default>`; a path whose first split segment is not a locale redirects to `/<default><path>`; otherwise the request is forwarded with its first segment as `x-lang`, and that segment is a locale |
| Middleware.Route | madeira360-app/middleware.ts:33-35 | a path containing `.` never reaches the middleware; every other path gets `Decide`'s answer |
| Middleware.FirstSegmentOfPrefixed | madeira360-app/middleware.ts:18 | `split('/')[1]` of `/<segment>`, for a segment without `/`, followed by an empty rest or a new segment is that segment |
| Middleware.LocalePrefixedNotSkipped | madeira360-app/middleware.ts:10-12 | no path that starts with `/de` or `/en` is one of the skipped framework, API or favicon paths |
| Middleware.NoRedirectLoop | madeira360-app/middleware.ts:14-24 | for a pathname that is empty or starts with `/`, the target of a redirect is forwarded with the default locale on the next request |
| Middleware.RedirectChainSettles | madeira360-app/middleware.ts:14-24 | for any string, at most two redirects lead to a request forwarded with the default locale |
| Middleware.UnsupportedDefaultNeverSettles | madeira360-app/middleware.ts:14-24 | with the unchecked default `fr`, `/` redirects to `/fr`, and every path under `/fr` redirects to `/fr` followed by itself, again a path under `/fr`, so the redirects never end |
| Content.Load | madeira360-app/contentlayer.config.ts:11-20 | a document loads exactly when title, description, date, lang and slug are present and lang is one of the enum options; the loaded fields are the front matter's |
| Content.Ceil | madeira360-app/contentlayer.config.ts:26 | `Math.ceil`: the least integer not below the argument |
| Content.Url | madeira360-app/contentlayer.config.ts:29-32 | a post's `url` splits at `/` into an empty head, the language, `blog` and then the slug's own pieces |
| Content.ReadingTime | madeira360-app/contentlayer.config.ts:22-28 | reading time is at least 1 and at least the minutes; it exceeds the minutes by less than one unless it is the floor value 1 |
| BlogUtils.FindIndex | madeira360-app/src/lib/blog-utils.ts:14 | `find`: the index of the first element satisfying the predicate, or none when no element does |
| BlogUtils.FindRelatedBlogPost | madeira360-app/src/lib/blog-utils.ts:13-32 | no current post gives null; otherwise a path exists exactly when some post in the target language shares the current post's date and cover; the path is `/<target>/blog/<slug>` of the first such post |
| BlogUtils.SameLanguageAlwaysMatches | madeira360-app/src/lib/blog-utils.ts:19-24 | looking up the current language always succeeds, because the current post is its own counterpart |
| BlogUtils.MatchIsCounterpartUrl | madeira360-app/src/lib/blog-utils.ts:26-28 | a found path is the computed `url` of a post in the target language |
| BlogUtils.MissingCoversMatch | madeira360-app/src/lib/blog-utils.ts:19-24 | two posts without a cover and with the same date match, because `undefined === undefined` |
| LocalePath.BlogSlugFrom | madeira360-app/src/app/api/related-blog/route.ts:28 | the capture of the leftmost pattern match at or after a position, or none when nothing there matches |
| LocalePath.BlogSlug | madeira360-app/src/app/api/related-blog/route.ts:28 | the pattern matches exactly when `/de/blog/` or `/en/blog/` occurs somewhere followed by a non-empty remainder without line terminators; the capture is that remainder for the leftmost such occurrence |
| LocalePath.Swap | madeira360-app/src/app/api/related-blog/route.ts:40-47 | the swapped path always starts with `/<newLang>`; when the first non-empty segment is not the current locale it is `/<newLang>` followed by the path unchanged |
| LocalePath.SegmentsAreValid | madeira360-app/src/app/api/related-blog/route.ts:40 | `split('/').filter(Boolean)` yields only non-empty segments without `/` |
| LocalePath.SwapReplacesFirstSegment | madeira360-app/src/app/api/related-blog/route.ts:40-44 | when the first segment is the current locale, the result's segments are the new locale followed by the remaining segments, and the result is normalized |
| LocalePath.SwapIdempotent | madeira360-app/src/app/api/related-blog/route.ts:40-47 | on a normalized path, or one led by the current locale, swapping the result again to its own locale changes nothing |
| LocalePath.SwapDropsTrailingSlashOnSecondSwap | madeira360-app/src/app/api/related-blog/route.ts:40-47 | `/foo/` swaps to `/en/foo/`, which swaps again to `/en/foo`: the swap is not idempotent in general |
| LocalePath.UrlCapturesSlug | madeira360-app/contentlayer.config.ts:29-32 | the blog pattern applied to a post's `url` captures the post's slug |
| LocalePath.UrlHasLocaleSegment | madeira360-app/contentlayer.config.ts:29-32 | a post's `url` starts with a locale segment |
| RelatedBlog.Get | madeira360-app/src/app/api/related-blog/route.ts:12-48 | a missing parameter gives 400 `Missing parameters` and an unknown locale gives 400 `Invalid locale`; a path is answered exactly when both locales are valid and it starts with `/<targetLang>`; a blog-detail path whose capture is the slug yields the related post or `/<target>/blog`; any other path yields the structural swap |
| RelatedBlog.SwapOfBareLocale | madeira360-app/src/app/api/related-blog/route.ts:41-44 | `/<lang>` swaps to exactly `/<target>` |
| RelatedBlog.SwapTwoSegments | madeira360-app/src/app/api/related-blog/route.ts:41-44 | `/<lang>/<w>` swaps to `/<target>/<w>` |
| RelatedBlog.SwapUnprefixedSegment | madeira360-app/src/app/api/related-blog/route.ts:47 | a one-segment path other than the locale gets `/<target>` in front |
| LanguageSwitcher.SwitcherQueryAnswered | madeira360-app/src/components/LanguageSwitcher.tsx:22-29 | the switcher's request on a blog-detail page always gets a path back: the related post, or the target's blog index |
| LanguageSwitcher.RelatedLink | madeira360-app/src/components/LanguageSwitcher.tsx:24-28 | a failed request falls back to `/<target>/blog`; a successful one yields the endpoint's answer |
| LanguageSwitcher.EffectPaths | madeira360-app/src/components/LanguageSwitcher.tsx:16-45 | outside blog-detail pages both links are structural swaps; on a blog-detail page the current language's link is the page itself |
| LanguageSwitcher.Link | madeira360-app/src/components/LanguageSwitcher.tsx:48-61 | once set, the cached paths are used; before that the link starts with `/<newLang>` |
| LanguageSwitcher.BlogLinkIsMatchOrIndex | madeira360-app/src/components/LanguageSwitcher.tsx:22-32 | on a blog-detail page the other language's link is its counterpart post when the request succeeds and one exists, and the blog index otherwise |
| LanguageSwitcher.FallbackAgreesWithEndpoint | madeira360-app/src/components/LanguageSwitcher.tsx:54-60 | outside the blog branch, the first-render link is exactly what the related-blog endpoint would answer |
| LanguageSwitcher.NonBlogLinksStable | madeira360-app/src/components/LanguageSwitcher.tsx:33-44 | outside blog-detail pages, running the effect does not change any link |
| Utm.ParseKeys | madeira360-app/src/lib/utm.ts:16-23 | a key is kept exactly when it is listed and the query has a non-empty value for it, with that value |
| Utm.ParseUtm | madeira360-app/src/lib/utm.ts:16-23 | a key is in the parsed record exactly when it is one of the five attribution keys and the query gives it a non-empty value, and it holds that value |
| Utm.Store | madeira360-app/src/lib/utm.ts:25-35 | without a window or without any value nothing changes; otherwise the payload lands under `madeira360_utm` with an expiry 2 592 000 000 ms ahead, and no other key changes |
| Utm.Read | madeira360-app/src/lib/utm.ts:37-52 | an unexpired usable entry reads back as its stored record and storage is unchanged; an expired usable entry reads as `{}` and is removed; a non-empty result is an unexpired stored record; a missing, unparsable or falsy-field entry reads as `{}` and is not removed |
| Utm.CaptureFromUrl | madeira360-app/src/lib/utm.ts:54-60 | with a window, the parsed query is returned and stored by `Store`'s rules; without one, nothing happens |
| Utm.StoreThenRead | madeira360-app/src/lib/utm.ts:25-52 | round trip: a stored record reads back unchanged at any time up to its expiry |
| Utm.StoreThenReadExpired | madeira360-app/src/lib/utm.ts:25-52 | after the 30 days a stored record reads as `{}` and is gone from storage |
| Utm.LastWriteWins | madeira360-app/src/lib/utm.ts:25-35 | storing twice leaves only the second record |
| Utm.ParsedHasAnyIffNonEmpty | madeira360-app/src/lib/utm.ts:27 | a parsed record has a truthy value exactly when it is non-empty |
| Utm.FormSeesFreshCapture | madeira360-app/src/components/TripPlanningForm.tsx:23-26 | a page URL with attribution makes the mounted form hold exactly that attribution |
| Utm.FormKeepsEarlierCapture | madeira360-app/src/components/TripPlanningForm.tsx:23-26 | a page URL without attribution leaves the previously stored record in force |
| Redirect.RateLimit | madeira360-app/src/app/api/redirect/route.ts:8-20 | a missing or ended window restarts at count 1 and ends 60 000 ms later; a full window refuses with the positive time remaining; otherwise the count goes up by one; other keys are untouched and counts stay between 1 and 60 |
| Redirect.WindowRoom | madeira360-app/src/app/api/redirect/route.ts:16-19 | within one window a key is allowed at most `60 - count` more requests |
| Redirect.AtMostSixtyPerWindow | madeira360-app/src/app/api/redirect/route.ts:8-20 | from the request that opens a window, at most 60 requests are allowed before that window ends |
| Redirect.SafeUrl | madeira360-app/src/app/api/redirect/route.ts:22-30 | a URL is accepted exactly when it parses with protocol `http:` or `https:`; the serialized form is returned |
| Redirect.RateKey | madeira360-app/src/app/api/redirect/route.ts:42-46 | the key is the trimmed first `x-forwarded-for` token when the header is present, else the user agent, else `anon` |
| Redirect.ClientIp | madeira360-app/src/app/api/redirect/route.ts:42 | the client IP is present exactly when `x-forwarded-for` is; it never contains a comma; it is the header's first comma-separated entry, trimmed, and the whole header trimmed when there is no comma |
| Redirect.Target | madeira360-app/src/app/api/redirect/route.ts:37 | a target exists exactly when the `url` parameter is non-empty and parses with protocol `http:` or `https:`; it is the serialized URL |
| Redirect.CeilSeconds | madeira360-app/src/app/api/redirect/route.ts:52 | `retry-after` is the least whole number of seconds covering the remaining milliseconds, and at least 1 |
| Redirect.Get | madeira360-app/src/app/api/redirect/route.ts:32-76 | a missing or unsafe url gives 400 and leaves the bucket alone; otherwise a limited key gives 429 with `retry-after` at least 1, and an allowed one gives a 307 to the safe URL with a click row carrying the offer id, the three UTM parameters, the referer, the client IP and the user agent of the request |
| Redirect.BlankForwardedForKeysOnEmpty | madeira360-app/src/app/api/redirect/route.ts:42-46 | a present but blank `x-forwarded-for` keys the limiter on `""`, whatever the user agent |
| Email.IndexOf | madeira360-app/src/app/api/tour-question/route.ts:3-5 | the index of the first occurrence of a character, or the length when there is none |
| Email.IsValidEmailMatchesPattern | madeira360-app/src/app/api/tour-question/route.ts:3-5 | the address check accepts exactly the strings of the form `[^\s@]+@[^\s@]+\.[^\s@]+` |
| Email.EmptyIsInvalid | madeira360-app/src/app/api/tour-question/route.ts:3-5 | the empty string is never a valid address |
| Email.ValidEmailIsTrimmed | madeira360-app/src/app/api/trip-planning/route.ts:28 | a valid address contains no whitespace, so `trim` leaves it unchanged |
| Subscribers.UtmFields | madeira360-app/src/app/api/trip-planning/route.ts:104-110 | every field is named `utm_` followed by a source key whose value is truthy, and carries that value; every truthy source entry appears |
| Subscribers.MakeSubscriber | madeira360-app/src/app/api/trip-planning/route.ts:65-114 | the subscriber is active with the given address; it has groups exactly when a group is configured, and fields exactly when there are any |
| TripPlanningRoute.Validate | madeira360-app/src/app/api/trip-planning/route.ts:22-53 | the checks run in source order, each case with its own error: an invalid address is 400 `invalid_email`; a valid one whose normalized form is longer than 254 is 400 `invalid_email`; then a date longer than 50 or interests longer than 1000 is 400 `invalid_input`; then a missing token is 500 `server_error`; validation passes exactly when every check passes |
| TripPlanningRoute.NormalizeEmail | madeira360-app/src/app/api/trip-planning/route.ts:28 | the normalized address is the trimmed address with each character lower-cased, so it is no longer than the input, holds no ASCII capital and neither starts nor ends with whitespace |
| TripPlanningRoute.FixedFields | madeira360-app/src/app/api/trip-planning/route.ts:81-101 | each of `travel_date_1`, `travel_date_2`, `interests` and `locale` is present exactly when its request member is truthy, with that value |
| TripPlanningRoute.TripFields | madeira360-app/src/app/api/trip-planning/route.ts:81-110 | the fields are the fixed fields together with the `utm_` fields, and each keeps its value |
| TripPlanningRoute.Post | madeira360-app/src/app/api/trip-planning/route.ts:11-114 | a body that is not JSON gives 500 `server_error`; a validation failure is returned as is; a body is submitted exactly when it passes validation, and the submission carries the normalized address and the trip fields |
| TripPlanningRoute.NormalizeKeepsLength | madeira360-app/src/app/api/trip-planning/route.ts:28-31 | for a valid address, normalizing only lower-cases it, so the 254 limit applies to the length as sent |
| TripPlanningRoute.SubmittedCarriesUtm | madeira360-app/src/app/api/trip-planning/route.ts:104-114 | a submitted subscriber carries each truthy UTM entry verbatim under its `utm_` name |
| NewsletterRoute.PayloadFields | madeira360-app/src/app/api/newsletter/route.ts:63-69 | a payload entry is copied under its own name exactly when it is truthy |
| NewsletterRoute.NewsletterFields | madeira360-app/src/app/api/newsletter/route.ts:52-69 | the field names are `language`, the `utm_` names and the payload names; payload values win, and the others keep their own values |
| NewsletterRoute.Post | madeira360-app/src/app/api/newsletter/route.ts:11-72 | a non-JSON body gives 500; an invalid address gives 400 `invalid_email`; a missing token gives 500; otherwise the address as sent is submitted with the newsletter fields |
| NewsletterRoute.PayloadOverridesUtm | madeira360-app/src/app/api/newsletter/route.ts:56-69 | a truthy payload entry named like a UTM field replaces the UTM value |
| TourQuestionRoute.Subject | madeira360-app/src/app/api/tour-question/route.ts:30 | the subject names the tour title, or `Tour Inquiry` when the title is falsy |
| TourQuestionRoute.Post | madeira360-app/src/app/api/tour-question/route.ts:7-67 | a non-JSON body gives 500; the address is checked first (400 `invalid_email`), then the question (400 `question_required` when missing or blank); a message is prepared exactly when both pass, addressed to the fixed recipient, with the template text and the HTML template |
| TourQuestionRoute.Text | madeira360-app/src/app/api/tour-question/route.ts:31-41 | trimming the text template removes only its leading newline and trailing indentation, leaving the message from `New question` to `website` |
| TourQuestionRoute.Html | madeira360-app/src/app/api/tour-question/route.ts:42-51 | the HTML body is the template with the question's lines joined by `<br>`, and with the question itself when it has a single line |
| TourQuestionRoute.HtmlQuestionReplacesLineBreaks | madeira360-app/src/app/api/tour-question/route.ts:48 | the HTML question is the question split at newlines and joined with `<br>`, and a single-line question is unchanged |
| TripPlanningForm.MountedHoldsFreshCapture | madeira360-app/src/components/TripPlanningForm.tsx:23-26 | a form mounted on a URL with attribution holds that attribution |
| TripPlanningForm.MountedKeepsEarlierCapture | madeira360-app/src/components/TripPlanningForm.tsx:23-26 | a form mounted on a URL without attribution holds what was stored before |
| TripPlanningForm.RemoveAll | madeira360-app/src/components/TripPlanningForm.tsx:109 | the removed item no longer occurs, every other item keeps its membership, and the list shrinks exactly when the item was there |
| TripPlanningForm.ToggleInterest | madeira360-app/src/components/TripPlanningForm.tsx:106-112 | toggling flips the interest's membership and leaves every other interest's membership alone; an absent interest is appended at the end |
| TripPlanningForm.ToggleKeepsNoDuplicates | madeira360-app/src/components/TripPlanningForm.tsx:106-112 | toggling keeps the selection free of duplicates |
| TripPlanningForm.ToggleTwiceRestores | madeira360-app/src/components/TripPlanningForm.tsx:106-112 | toggling an absent interest twice restores the exact list |
| TripPlanningForm.ToggleStaysWithinOptions | madeira360-app/src/components/TripPlanningForm.tsx:249-260 | toggling offered interests never selects anything that is not offered |
| TripPlanningForm.SelectionLabelCounts | madeira360-app/src/components/TripPlanningForm.tsx:228-232 | for two or more interests the label is a decimal number that reads back as the count, followed by ` ausgewählt` or ` selected` |
| TripPlanningForm.SelectionLabel | madeira360-app/src/components/TripPlanningForm.tsx:228-232 | for two or more interests the label starts with a digit and ends with a space and ` ausgewählt` or ` selected` |
| TripPlanningForm.SelectionLabelSmall | madeira360-app/src/components/TripPlanningForm.tsx:228-231 | no selection shows the placeholder; one selection shows that interest |
| TripPlanningForm.OrNull | madeira360-app/src/components/TripPlanningForm.tsx:127-129 | `s \|\| null` is null exactly for the empty string, and the string otherwise |
| TripPlanningForm.InterestsValue | madeira360-app/src/components/TripPlanningForm.tsx:120-129 | an empty selection is sent as null; a non-null value is the non-empty `", "`-join |
| TripPlanningForm.InterestsValueNonNull | madeira360-app/src/components/TripPlanningForm.tsx:120-129 | any non-empty selected interest makes the value non-null |
| TripPlanningForm.UtmObject | madeira360-app/src/components/TripPlanningForm.tsx:131 | the attribution is sent with the same keys and its values as strings |
| TripPlanningForm.RequestBody | madeira360-app/src/components/TripPlanningForm.tsx:125-132 | the body carries the address as typed, empty dates as null and others verbatim, the interests value, the locale, and the attribution with the same keys and each value as a string |
| TripPlanningForm.Begin | madeira360-app/src/components/TripPlanningForm.tsx:116 | submitting sets the status to loading, which disables the button, and changes nothing else |
| TripPlanningForm.Finish | madeira360-app/src/components/TripPlanningForm.tsx:135-144 | success clears the address, dates and selection and keeps the attribution; failure keeps every input and shows the error |
| TripPlanningForm.SuccessResetsToMounted | madeira360-app/src/components/TripPlanningForm.tsx:135-141 | after a successful submission the form equals a freshly mounted one, apart from the status |
| TripPlanningForm.FailureResendsSameBody | madeira360-app/src/components/TripPlanningForm.tsx:142-144 | after a failure, submitting again posts the same body |
| TripPlanningForm.FormUtmSourceArrivesDoublePrefixed | madeira360-app/src/components/TripPlanningForm.tsx:131 | an accepted submission carries the form's `utm_source` under the field `utm_utm_source` |
| TripPlanningForm.FormInterestsReachField | madeira360-app/src/components/TripPlanningForm.tsx:120-129 | the route's `interests` field is present exactly when the form sends a non-null value, and it holds the join |
| TourFaq.Toggle | madeira360-app/src/components/TourFAQ.tsx:20-22 | toggling the open item closes every item; toggling any other item opens that item and no other |
| TourFaq.InitiallyClosed | madeira360-app/src/components/TourFAQ.tsx:18 | no item is open initially |
| TourFaq.AtMostOneOpen | madeira360-app/src/components/TourFAQ.tsx:18-31 | no two different items are open at once |
| TourFaq.OpenIsLastClicked | madeira360-app/src/components/TourFAQ.tsx:20-31 | after a series of clicks the open item, if any, is the last one clicked, and it is a rendered item when every click was |
| TourFaq.SameItemAlternates | madeira360-app/src/components/TourFAQ.tsx:20-22 | clicking one item repeatedly opens it exactly on the odd clicks and closes everything on the even ones |
| TourQuestionForm.ValidateEmail | madeira360-app/src/components/TourQuestionForm.tsx:41-52 | passes exactly for a valid address; the message is empty exactly for an empty or valid value, and otherwise it is the invalid-address text |
| TourQuestionForm.OnEmailInput | madeira360-app/src/components/TourQuestionForm.tsx:123-128 | typing sets the address and touches nothing but the inline message; with no message shown none appears; with one shown it disappears exactly for an empty or valid value, and otherwise remains the invalid-address text |
| TourQuestionForm.OnEmailBlur | madeira360-app/src/components/TourQuestionForm.tsx:129 | leaving the field shows a message exactly when the address is non-empty and malformed, and changes nothing else |
| TourQuestionForm.Submit | madeira360-app/src/components/TourQuestionForm.tsx:54-82 | a request is sent exactly when the address is valid and the trimmed question is non-empty; an invalid address stops with the form message cleared; a blank question shows the question-required text; a request carries the trimmed question, omits an empty name and puts the form into loading; the inputs are never changed |
| TourQuestionForm.Complete | madeira360-app/src/components/TourQuestionForm.tsx:84-98 | success clears name, address, question and inline message; failure shows the error text and keeps the inputs |
| TourQuestionForm.SentRequestAccepted | madeira360-app/src/components/TourQuestionForm.tsx:72-82 | every request the form sends passes the route's checks and gets a prepared message about the form's tour |
| TourQuestionForm.SuccessfulRoundClears | madeira360-app/src/components/TourQuestionForm.tsx:90-94 | a successful submit-and-response round leaves the initial form, showing success |
| TourQuestionForm.TypingWithoutMessageStaysQuiet | madeira360-app/src/components/TourQuestionForm.tsx:123-128 | while no message is shown, no amount of typing makes one appear |
| Sitemap.BaseUrl | madeira360-app/src/app/sitemap.ts:4-7 | the base is the configured URL, or `http://localhost:3000`, with one trailing `/` removed if there is one |
| Sitemap.PostEntries | madeira360-app/src/app/sitemap.ts:23-26 | one entry per post, in collection order: base plus the post's `url`, dated by the post |
| Sitemap.Sitemap | madeira360-app/src/app/sitemap.ts:9-29 | the sitemap has `8 + posts` entries: the static pages first, then the posts in order |
| Sitemap.BaseUrlStripsExactlyOne | madeira360-app/src/app/sitemap.ts:6 | appending one `/` and taking the base gives the URL back; a URL that does not end in `/` is kept |
| Sitemap.StaticPagesForEachLocale | madeira360-app/src/app/sitemap.ts:12-21 | both locales have home, blog, privacy and terms entries |
| Sitemap.StaticPagesForwarded | madeira360-app/src/app/sitemap.ts:12-21 | every static sitemap page is served in its own locale by the middleware, without a redirect |
| Sitemap.PostPagesForwarded | madeira360-app/src/app/sitemap.ts:23-26 | every post path is forwarded in the post's language; it passes the matcher unless the slug contains `.` |
| Strings.Split | madeira360-app/middleware.ts:18 | `split` yields at least one piece and no piece contains the separator |
| Strings.Trim | madeira360-app/src/app/api/trip-planning/route.ts:28 | `trim` is no longer than its input, neither starts nor ends with whitespace, is empty exactly when the input is all whitespace, and holds only characters of the input |
| Strings.ToLower | madeira360-app/src/app/api/trip-planning/route.ts:28 | `toLowerCase` keeps the length and maps each character on its own to one that is not an ASCII capital, keeping whitespace as whitespace |
| Strings.NatToStringRoundTrip | madeira360-app/src/components/TripPlanningForm.tsx:232 | the decimal rendering of a count reads back as the count |
| Strings.SplitJoin | madeira360-app/src/app/api/related-blog/route.ts:40-42 | joining pieces free of the separator and splitting again gives the pieces back |
| Strings.JoinSplit | madeira360-app/src/app/api/related-blog/route.ts:40-42 | splitting and joining with the same separator gives the string back |
| Strings.TrimIdempotent | madeira360-app/src/components/TourQuestionForm.tsx:64-78 | trimming twice equals trimming once |
| Strings.TrimFrame | madeira360-app/src/app/api/tour-question/route.ts:31-41 | trimming a core framed by whitespace, where the core starts and ends with a non-space, yields the core |
| Strings.ReplaceCharIsSplitJoin | madeira360-app/src/app/api/tour-question/route.ts:48 | replacing every occurrence of a character equals splitting at it and joining with the replacement |

## Left out

- Sending and storage calls are not modelled: the mailing-list `POST` and its `PUT` retry after a 422, the Supabase click insert, and the tour-question e-mail, which the route only logs. The model stops at the record or message handed to them. The `mailerlite_error` replies and the "update existing subscriber" success path depend only on the service's status codes.
- The URL parser behind `safeUrl` and `new URL(req.url)` is an input to the model, given as a protocol and a serialized `href`. The model does not re-implement WHATWG URL parsing or normalization.
- The `reading-time` library's word count is not modelled. `Content.ReadingTime` takes its minutes as an input.
- Contentlayer's date parsing is not modelled: `date` is kept as a string. So is the sitemap's `new Date(...)`: `lastModified` is either the build time or the post's date string.
- React rendering, the dropdown's open/close and outside-click handling, CSS classes, and the static copy texts are left out. Only the texts the logic chooses between are modelled.
- Content.Load: which error a malformed document reports (the first missing field in declaration order, the enum check before the slug check) is an abstraction of Contentlayer's own error handling, which is library behaviour. Only whether a document loads, and with which fields, follows the configuration.
- A `body` that is JSON but not an object, such as `null` or members of the wrong type, is not modelled. Inside the `utm` and `payload` objects, whose values are `unknown`, any JSON value is allowed: a string, a number, a boolean, `null`, or an object or array, which is always truthy and is copied as it is. Routes take either a parsed object with optional string members or "not JSON".
- Exceptions from `localStorage` (quota, disabled storage) are not modelled. A stored value that is not JSON is modelled as `Unparsable`.
- The content index query over all posts is not part of this model. Only `findRelatedBlogPost` and the sitemap read the collection here.
- Strings.ToLower: lower-cases ASCII letters only, whereas JavaScript `toLowerCase` also maps other Unicode letters. For a non-ASCII address such as `\u00C4@b.de` the normalized address differs: the model keeps `Ä` where JavaScript gives `ä`. This changes the address the subscriber record submits, not only its length.
- TripPlanningRoute.Validate: lengths count Unicode scalar values, whereas JavaScript `.length` counts UTF-16 code units. The two differ only for characters outside the Basic Multilingual Plane.
- Middleware.Route: the matcher is modelled as "contains no `.`". The source's regular expression `(?!.*\..*)` also lets through a `.` that follows a line terminator, which a request pathname never contains.
- LocalePath.SwapIdempotent: stated only for normalized paths and for paths led by the current locale. In general the swap is not idempotent, as `LocalePath.SwapDropsTrailingSlashOnSecondSwap` shows.
- Middleware.NoRedirectLoop: requires a pathname that is empty or starts with `/`, as the platform guarantees, and a default locale of `de` or `en`. The environment value is not checked; with an unsupported value such as `fr` the redirects never end (`Middleware.UnsupportedDefaultNeverSettles`). `Middleware.RedirectChainSettles` covers every string with a bound of two redirects.
- Content.ReadingTime: the minutes are a real number. The JavaScript value could be `NaN` or infinite, which the model does not represent.
- Redirect.CeilSeconds: defined for positive milliseconds only, which is all `RateLimit` ever reports. The source's `?? 0` fallback cannot be reached.

=== FILE: blog_utils.dfy ===
/** `findRelatedBlogPost` of `src/lib/blog-utils.ts`: cross-language matching by date and cover. */
module BlogUtils {
  import opened Optional
  import opened Strings
  import opened I18n
  import opened Content

  /** `Array.prototype.find`, as the index of the first element satisfying `p`. */
  function FindIndex<T>(xs: seq<T>, p: T -> bool): (r: Option<nat>)
    ensures r.Some? ==> r.value < |xs| && p(xs[r.value])
    ensures r.Some? ==> forall k :: 0 <= k < r.value ==> !p(xs[k])
    ensures r.None? ==> forall k :: 0 <= k < |xs| ==> !p(xs[k])
  {
    if |xs| == 0 then None
    else if p(xs[0]) then Some(0)
    else match FindIndex(xs[1..], p)
      case None => None
      case Some(i) => Some(i + 1)
  }

  /** The post being displayed: same language and same slug. */
  predicate IsSource(b: Blog, lang: string, slug: string) {
    b.lang == lang && b.slug == slug
  }

  /** A post in `target` with the source's date and cover; two missing covers are equal. */
  predicate IsCounterpart(b: Blog, target: string, source: Blog) {
    b.lang == target && b.date == source.date && b.cover == source.cover
  }

  /** `i` is the first index whose post satisfies `IsSource`. */
  ghost predicate FirstSource(posts: seq<Blog>, lang: string, slug: string, i: int) {
    0 <= i < |posts| && IsSource(posts[i], lang, slug)
    && forall k :: 0 <= k < i ==> !IsSource(posts[k], lang, slug)
  }

  /** `j` is the first index whose post is a counterpart of `source` in `target`. */
  ghost predicate FirstCounterpart(posts: seq<Blog>, target: string, source: Blog, j: int) {
    0 <= j < |posts| && IsCounterpart(posts[j], target, source)
    && forall k :: 0 <= k < j ==> !IsCounterpart(posts[k], target, source)
  }

  /**
   * The path of the post in `targetLang` that corresponds to the post
   * `(currentLang, currentSlug)`, or `None` when that post does not exist or
   * has no counterpart.
   */
  function FindRelatedBlogPost(posts: seq<Blog>, currentSlug: string, currentLang: Locale, targetLang: Locale)
    : (r: Option<string>)
    ensures (forall k :: 0 <= k < |posts| ==> !IsSource(posts[k], currentLang, currentSlug)) ==> r.None?
    ensures forall i :: FirstSource(posts, currentLang, currentSlug, i) ==>
              (r.Some? <==> exists j :: 0 <= j < |posts| && IsCounterpart(posts[j], targetLang, posts[i]))
    ensures forall i, j :: FirstSource(posts, currentLang, currentSlug, i)
                           && FirstCounterpart(posts, targetLang, posts[i], j) ==>
              r == Some("/" + targetLang + "/blog/" + posts[j].slug)
    ensures r.Some? ==> StartsWith(r.value, "/" + targetLang + "/blog/")
  {
    match FindIndex(posts, b => IsSource(b, currentLang, currentSlug))
    case None => None
    case Some(i) =>
      var source := posts[i];
      match FindIndex(posts, b => IsCounterpart(b, targetLang, source))
      case None => None
      case Some(j) =>
        var path := "/" + targetLang + "/blog/" + posts[j].slug;
        assert path[..|"/" + targetLang + "/blog/"|] == "/" + targetLang + "/blog/";
        Some(path)
  }

  /** Matching a post against its own language always succeeds: the post is its own counterpart. */
  lemma SameLanguageAlwaysMatches(posts: seq<Blog>, currentSlug: string, lang: Locale, i: int)
    requires 0 <= i < |posts| && IsSource(posts[i], lang, currentSlug)
    ensures FindRelatedBlogPost(posts, currentSlug, lang, lang).Some?
  {
    var f := FindIndex(posts, b => IsSource(b, lang, currentSlug));
    assert f.Some?;
    assert FirstSource(posts, lang, currentSlug, f.value);
    assert IsCounterpart(posts[f.value], lang, posts[f.value]);
  }

  /** A matched path is the `url` of the counterpart post. */
  lemma MatchIsCounterpartUrl(posts: seq<Blog>, currentSlug: string, currentLang: Locale, targetLang: Locale)
    requires FindRelatedBlogPost(posts, currentSlug, currentLang, targetLang).Some?
    ensures exists j :: 0 <= j < |posts| && posts[j].lang == targetLang
                        && FindRelatedBlogPost(posts, currentSlug, currentLang, targetLang).value == Url(posts[j])
  {
    var i := FindIndex(posts, b => IsSource(b, currentLang, currentSlug)).value;
    var j := FindIndex(posts, b => IsCounterpart(b, targetLang, posts[i])).value;
    assert FirstSource(posts, currentLang, currentSlug, i);
    assert FirstCounterpart(posts, targetLang, posts[i], j);
  }

  /** Two posts that both lack a cover and share a date are counterparts. */
  lemma MissingCoversMatch(source: Blog, other: Blog, target: Locale)
    requires other.lang == target && other.date == source.date
    requires source.cover.None? && other.cover.None?
    ensures IsCounterpart(other, target, source)
  {
  }
}

=== FILE: content.dfy ===
/** The `Blog` document type of `contentlayer.config.ts`. */
module Content {
  import opened Optional
  import opened Strings
  import opened I18n

  /** A loaded blog document: the five required fields and the three optional ones. */
  datatype Blog = Blog(
    title: string,
    description: string,
    date: string,
    lang: Locale,
    slug: string,
    tags: Option<seq<string>>,
    category: Option<string>,
    cover: Option<string>)

  /** The front matter of one `.mdx` file before the schema is applied: every field may be missing. */
  datatype FrontMatter = FrontMatter(
    title: Option<string>,
    description: Option<string>,
    date: Option<string>,
    lang: Option<string>,
    slug: Option<string>,
    tags: Option<seq<string>>,
    category: Option<string>,
    cover: Option<string>)

  datatype SchemaError = MissingField(field: string) | NotAnOption(field: string, value: string)

  /** Present values of the required fields, with `lang` one of the enum options. */
  predicate Conforms(fm: FrontMatter) {
    fm.title.Some? && fm.description.Some? && fm.date.Some? && fm.slug.Some?
    && fm.lang.Some? && IsLocale(fm.lang.value)
  }

  /**
   * Applies the field schema: the required fields are checked in declaration
   * order and `lang` must be one of the enum options; the optional fields are
   * carried over as they are.
   */
  function Load(fm: FrontMatter): (r: Result<Blog, SchemaError>)
    ensures r.Ok? <==> Conforms(fm)
    ensures r.Ok? ==>
              && r.value.title == fm.title.value && r.value.description == fm.description.value
              && r.value.date == fm.date.value && r.value.lang == fm.lang.value
              && r.value.slug == fm.slug.value && r.value.tags == fm.tags
              && r.value.category == fm.category && r.value.cover == fm.cover
    ensures fm.title.None? ==> r == Err(MissingField("title"))
    ensures fm.lang.Some? && !IsLocale(fm.lang.value) && r.Err? ==>
              r.error.MissingField? || r.error == NotAnOption("lang", fm.lang.value)
  {
    if fm.title.None? then Err(MissingField("title"))
    else if fm.description.None? then Err(MissingField("description"))
    else if fm.date.None? then Err(MissingField("date"))
    else if fm.lang.None? then Err(MissingField("lang"))
    else if !IsLocale(fm.lang.value) then Err(NotAnOption("lang", fm.lang.value))
    else if fm.slug.None? then Err(MissingField("slug"))
    else Ok(Blog(fm.title.value, fm.description.value, fm.date.value, fm.lang.value,
                 fm.slug.value, fm.tags, fm.category, fm.cover))
  }

  /** The computed `url` field. */
  function Url(b: Blog): (u: string)
    ensures Split(u, '/') == ["", b.lang, "blog"] + Split(b.slug, '/')
  {
    LocaleShape(b.lang);
    var tail := "blog" + ['/'] + b.slug;
    SplitAfterPiece("blog", b.slug, '/');
    SplitAfterPiece(b.lang, tail, '/');
    SplitAfterPiece("", b.lang + ['/'] + tail, '/');
    assert "/" + b.lang + "/blog/" + b.slug == "" + ['/'] + (b.lang + ['/'] + tail);
    "/" + b.lang + "/blog/" + b.slug
  }

  /** `Math.ceil` on a real number. */
  function Ceil(x: real): (n: int)
    ensures (n - 1) as real < x <= n as real
  {
    var f := x.Floor;
    if f as real == x then f else f + 1
  }

  /**
   * The computed `readingTime` field from the word-count estimate in minutes:
   * the least whole number of minutes that is at least the estimate, and never
   * below one.
   */
  function ReadingTime(minutes: real): (r: int)
    ensures r >= 1
    ensures r as real >= minutes
    ensures r == 1 || (r - 1) as real < minutes
  {
    var c := Ceil(minutes);
    if c < 1 then 1 else c
  }
}

=== FILE: email.dfy ===
/**
 * The e-mail check `/^[^\s@]+@[^\s@]+\.[^\s@]+$/` shared by the trip-planning,
 * newsletter and tour-question routes and the tour question form.
 */
module Email {
  import opened Strings

  /** A character of the class `[^\s@]`. */
  predicate EmailChar(c: char) {
    !IsJsSpace(c) && c != '@'
  }

  predicate AllEmailChars(s: string) {
    forall k :: 0 <= k < |s| ==> EmailChar(s[k])
  }

  /**
   * The language of the pattern: a non-empty local part, `@`, a non-empty
   * run, `.`, and a non-empty run, all three runs free of `\s` and `@`.
   */
  ghost predicate MatchesPattern(s: string) {
    exists i, j :: 0 < i && i + 1 < j && j + 1 < |s| && s[i] == '@' && s[j] == '.'
                   && AllEmailChars(s[..i]) && AllEmailChars(s[i + 1..j]) && AllEmailChars(s[j + 1..])
  }

  /** The index of the first `c` in `s`, or `|s|` when there is none. */
  function IndexOf(s: string, c: char): (i: nat)
    ensures i <= |s|
    ensures i < |s| ==> s[i] == c
    ensures forall k :: 0 <= k < i ==> s[k] != c
  {
    if |s| == 0 then 0
    else if s[0] == c then 0
    else 1 + IndexOf(s[1..], c)
  }

  /** The domain (after the `@`) has a `.` with at least one character on each side. */
  predicate HasInnerDot(domain: string) {
    exists k :: 0 < k < |domain| - 1 && domain[k] == '.'
  }

  /**
   * `isValidEmail`: no whitespace at all, exactly one `@` and not in front,
   * and a domain holding a `.` that is neither its first nor its last character.
   */
  predicate IsValidEmail(s: string) {
    var at := IndexOf(s, '@');
    (forall k :: 0 <= k < |s| ==> !IsJsSpace(s[k]))
    && 0 < at < |s| && '@' !in s[at + 1..] && HasInnerDot(s[at + 1..])
  }

  lemma ValidMatchesPattern(s: string)
    requires IsValidEmail(s)
    ensures MatchesPattern(s)
  {
    var at := IndexOf(s, '@');
    var domain := s[at + 1..];
    var k :| 0 < k < |domain| - 1 && domain[k] == '.';
    var j := at + 1 + k;
    assert s[j] == '.';
    assert AllEmailChars(s[..at]);
    var host := s[at + 1..j];
    forall m | 0 <= m < |host|
      ensures EmailChar(host[m])
    {
      assert host[m] == domain[m];
    }
    var tld := s[j + 1..];
    forall m | 0 <= m < |tld|
      ensures EmailChar(tld[m])
    {
      assert tld[m] == domain[k + 1 + m];
    }
  }

  lemma PatternMatchesValid(s: string)
    requires MatchesPattern(s)
    ensures IsValidEmail(s)
  {
    var i, j :| 0 < i && i + 1 < j && j + 1 < |s| && s[i] == '@' && s[j] == '.'
                && AllEmailChars(s[..i]) && AllEmailChars(s[i + 1..j]) && AllEmailChars(s[j + 1..]);
    forall k | 0 <= k < |s|
      ensures !IsJsSpace(s[k]) && (k != i ==> s[k] != '@')
    {
      if k < i {
        assert s[k] == s[..i][k];
      } else if i < k < j {
        assert s[k] == s[i + 1..j][k - i - 1];
      } else if j < k {
        assert s[k] == s[j + 1..][k - j - 1];
      }
    }
    assert IndexOf(s, '@') == i;
    var domain := s[i + 1..];
    assert domain[j - i - 1] == '.';
    assert '@' !in domain by {
      forall m | 0 <= m < |domain|
        ensures domain[m] != '@'
      {
        assert domain[m] == s[i + 1 + m];
      }
    }
  }

  /** The executable check accepts exactly the strings the pattern describes. */
  lemma IsValidEmailMatchesPattern(s: string)
    ensures IsValidEmail(s) <==> MatchesPattern(s)
  {
    if IsValidEmail(s) {
      ValidMatchesPattern(s);
    }
    if MatchesPattern(s) {
      PatternMatchesValid(s);
    }
  }

  /** The empty string is never a valid address. */
  lemma EmptyIsInvalid()
    ensures !IsValidEmail("")
  {
  }

  /** A valid address holds no whitespace, so trimming leaves it unchanged. */
  lemma ValidEmailIsTrimmed(s: string)
    requires IsValidEmail(s)
    ensures Trim(s) == s
  {
    TrimWithoutSpace(s);
  }
}

=== FILE: i18n.dfy ===
/** The locale registry of `src/lib/i18n.ts`. */
module I18n {
  import opened Optional

  /** The supported locales, in this order. */
  const Locales: seq<string> := ["de", "en"]

  /** The hard-coded default used when the environment does not name one. */
  const FallbackLocale: string := "de"

  /** `isLocale`: exact, case-sensitive membership in `Locales`. */
  predicate IsLocale(v: string)
    ensures IsLocale(v) <==> v == "de" || v == "en"
  {
    v in Locales
  }

  type Locale = s: string | IsLocale(s) witness "de"

  /**
   * `DEFAULT_LOCALE`: the environment value when it is set (taken as is,
   * without validation), otherwise "de".
   */
  function DefaultLocale(env: Option<string>): (d: string)
    ensures env.None? ==> d == FallbackLocale
    ensures env.Some? ==> d == env.value
  {
    env.GetOr(FallbackLocale)
  }

  /** Every supported locale is a two-letter code without `/`, so it is exactly one path segment. */
  lemma LocaleShape(v: string)
    requires IsLocale(v)
    ensures |v| == 2 && '/' !in v && v != ""
  {
  }

  /** The empty string and every string longer than two characters is rejected. */
  lemma IsLocaleRejectsOtherLengths(v: string)
    requires |v| != 2
    ensures !IsLocale(v)
  {
  }
}

=== FILE: language_switcher.dfy ===
/** The link computation of `src/components/LanguageSwitcher.tsx`. */
module LanguageSwitcher {
  import opened Optional
  import opened Strings
  import opened I18n
  import opened Content
  import opened BlogUtils
  import opened LocalePath
  import opened RelatedBlog

  /** The two links, one per supported locale (the `paths` state once set). */
  datatype Paths = Paths(de: string, en: string) {
    function For(l: Locale): string {
      if l == "de" then de else en
    }
  }

  /** The request the switcher sends on a blog-detail page; it is always answered with a path. */
  lemma SwitcherQueryAnswered(pathname: string, slug: string, lang: Locale, target: Locale, posts: seq<Blog>)
    requires BlogSlug(pathname) == Some(slug)
    ensures var reply := Get(Some(slug), Some(lang), Some(target), Some(pathname), posts);
            var related := FindRelatedBlogPost(posts, slug, lang, target);
            reply == PathReply(if related.Some? then related.value else "/" + target + "/blog")
  {
  }

  /**
   * The link for `target` on a blog-detail page whose captured slug is `slug`:
   * the path the related-blog endpoint answers with, or `/<target>/blog` when
   * the request fails (`reachable` is false).
   */
  function RelatedLink(pathname: string, slug: string, lang: Locale, target: Locale, posts: seq<Blog>, reachable: bool)
    : (href: string)
    requires BlogSlug(pathname) == Some(slug)
    ensures !reachable ==> href == "/" + target + "/blog"
    ensures reachable ==> var related := FindRelatedBlogPost(posts, slug, lang, target);
                          href == (if related.Some? then related.value else "/" + target + "/blog")
  {
    if !reachable then "/" + target + "/blog"
    else
      var reply := Get(Some(slug), Some(lang), Some(target), Some(pathname), posts);
      SwitcherQueryAnswered(pathname, slug, lang, target, posts);
      reply.path
  }

  /**
   * The effect that fills `paths`: on a blog-detail page the current
   * language keeps `pathname` and every other language asks the endpoint; on
   * any other page both links are structural swaps, the current language's included.
   */
  function EffectPaths(pathname: string, lang: Locale, posts: seq<Blog>, deReachable: bool, enReachable: bool)
    : (p: Paths)
    ensures BlogSlug(pathname).None? ==> p == Paths(Swap(pathname, lang, "de"), Swap(pathname, lang, "en"))
    ensures BlogSlug(pathname).Some? ==> p.For(lang) == pathname
  {
    match BlogSlug(pathname)
    case Some(slug) =>
      Paths(if lang != "de" then RelatedLink(pathname, slug, lang, "de", posts, deReachable) else pathname,
            if lang != "en" then RelatedLink(pathname, slug, lang, "en", posts, enReachable) else pathname)
    case None =>
      Paths(Swap(pathname, lang, "de"), Swap(pathname, lang, "en"))
  }

  /** The `href` rendered for `newLang`: the cached paths once set, the structural swap before. */
  function Link(cached: Option<Paths>, pathname: string, lang: Locale, newLang: Locale): (href: string)
    ensures cached.Some? ==> href == cached.value.For(newLang)
    ensures cached.None? ==> StartsWith(href, "/" + newLang)
  {
    match cached
    case Some(paths) => paths.For(newLang)
    case None => Swap(pathname, lang, newLang)
  }

  /**
   * On a blog-detail page the link to another language is the matched
   * counterpart or that language's blog index when the request succeeds,
   * and the blog index when it fails.
   */
  lemma BlogLinkIsMatchOrIndex(pathname: string, lang: Locale, target: Locale, posts: seq<Blog>,
                               deReachable: bool, enReachable: bool)
    requires BlogSlug(pathname).Some? && target != lang
    ensures var related := FindRelatedBlogPost(posts, BlogSlug(pathname).value, lang, target);
            var reachable := if target == "de" then deReachable else enReachable;
            EffectPaths(pathname, lang, posts, deReachable, enReachable).For(target)
            == (if reachable && related.Some? then related.value else "/" + target + "/blog")
  {
    var slug := BlogSlug(pathname).value;
    var p := EffectPaths(pathname, lang, posts, deReachable, enReachable);
    if target == "de" {
      assert p.de == RelatedLink(pathname, slug, lang, "de", posts, deReachable);
    } else {
      assert p.en == RelatedLink(pathname, slug, lang, "en", posts, enReachable);
    }
  }

  /**
   * The first-render fallback link equals what the related-blog endpoint
   * answers for a page that is not a blog-detail page: client and server
   * compute the same swap.
   */
  lemma FallbackAgreesWithEndpoint(pathname: string, slug: string, lang: Locale, newLang: Locale, posts: seq<Blog>)
    requires pathname != "" && slug != ""
    requires BlogSlug(pathname) != Some(slug)
    ensures Get(Some(slug), Some(lang), Some(newLang), Some(pathname), posts) == PathReply(Link(None, pathname, lang, newLang))
  {
  }

  /** Outside blog-detail pages the links do not change once the effect has run. */
  lemma NonBlogLinksStable(pathname: string, lang: Locale, newLang: Locale, posts: seq<Blog>,
                           deReachable: bool, enReachable: bool)
    requires BlogSlug(pathname).None?
    ensures Link(Some(EffectPaths(pathname, lang, posts, deReachable, enReachable)), pathname, lang, newLang)
            == Link(None, pathname, lang, newLang)
  {
  }
}

=== FILE: locale_path.dfy ===
/**
 * Localized paths: the blog-detail pattern `/\/(de|en)\/blog\/(.+)$/` shared
 * by the related-blog route and the language switcher, and the structural
 * locale-segment swap both of them compute.
 */
module LocalePath {
  import opened Optional
  import opened Strings
  import opened I18n
  import opened Content

  /** Length of `/de/blog/` and of `/en/blog/`. */
  const PrefixLength: nat := 9

  /**
   * The pattern matches starting at index `i`: `/de/blog/` or `/en/blog/` sits
   * there and the rest of the string is non-empty and free of line
   * terminators (the greedy `.+` must reach `$`, the end of the input).
   */
  predicate BlogMatchAt(s: string, i: int) {
    0 <= i && i + PrefixLength < |s|
    && (s[i..i + PrefixLength] == "/de/blog/" || s[i..i + PrefixLength] == "/en/blog/")
    && HasNoLineTerminator(s[i + PrefixLength..])
  }

  /** The capture of the leftmost match at or after `from`. */
  function BlogSlugFrom(s: string, from: nat): (r: Option<string>)
    requires from <= |s|
    ensures r.None? ==> forall i :: from <= i < |s| ==> !BlogMatchAt(s, i)
    ensures r.Some? ==> exists i :: from <= i < |s| && BlogMatchAt(s, i) && r.value == s[i + PrefixLength..]
                                   && forall k :: from <= k < i ==> !BlogMatchAt(s, k)
    decreases |s| - from
  {
    if from == |s| then None
    else if BlogMatchAt(s, from) then Some(s[from + PrefixLength..])
    else BlogSlugFrom(s, from + 1)
  }

  /**
   * `pathname.match(/\/(de|en)\/blog\/(.+)$/)?.[2]`: the pattern is not
   * anchored at the start, so the slug is the remainder after the leftmost
   * `/de/blog/` or `/en/blog/` that is followed by a non-empty line; it may
   * itself contain `/`.
   */
  function BlogSlug(pathname: string): (r: Option<string>)
    ensures r.Some? <==> exists i :: 0 <= i < |pathname| && BlogMatchAt(pathname, i)
    ensures r.Some? ==> r.value != ""
    ensures r.Some? ==> exists i :: BlogMatchAt(pathname, i) && r.value == pathname[i + PrefixLength..]
                                   && forall k :: 0 <= k < i ==> !BlogMatchAt(pathname, k)
  {
    BlogSlugFrom(pathname, 0)
  }

  /**
   * The structural swap: when the first non-empty segment is `currentLang`
   * it is replaced by `newLang` and the other non-empty segments follow,
   * joined by `/`; otherwise `/<newLang>` is put in front of the path as it is.
   */
  function Swap(pathname: string, currentLang: string, newLang: string): (r: string)
    ensures StartsWith(r, "/" + newLang)
    ensures !(|Segments(pathname)| > 0 && Segments(pathname)[0] == currentLang) ==> r == "/" + newLang + pathname
  {
    var segments := Segments(pathname);
    if |segments| > 0 && segments[0] == currentLang then
      var rest := Join(segments[1..], "/");
      if rest != "" then "/" + newLang + "/" + rest else "/" + newLang
    else
      "/" + newLang + pathname
  }

  /** A path that is `/` followed by its non-empty segments joined with `/`: no doubled or trailing slash. */
  predicate Normalized(pathname: string) {
    |Segments(pathname)| >= 1 && pathname == "/" + Join(Segments(pathname), "/")
  }

  /** Valid segments: non-empty and free of `/`. */
  predicate ValidSegments(xs: seq<string>) {
    forall i :: 0 <= i < |xs| ==> xs[i] != "" && '/' !in xs[i]
  }

  lemma SegmentsAreValid(pathname: string)
    ensures ValidSegments(Segments(pathname))
  {
    var parts := Split(pathname, '/');
    var segs := Segments(pathname);
    forall i | 0 <= i < |segs|
      ensures segs[i] != "" && '/' !in segs[i]
    {
      assert segs[i] in parts;
      var j :| 0 <= j < |parts| && parts[j] == segs[i];
    }
  }

  /** `/` + `L` + the rest joined: the joined form with `L` as first piece. */
  lemma JoinWithHead(l: string, xs: seq<string>)
    ensures Join([l] + xs, "/") == (if |xs| == 0 then l else l + "/" + Join(xs, "/"))
  {
    if |xs| > 0 {
      assert ([l] + xs)[1..] == xs;
    }
  }

  /** Joining at least one non-empty piece gives a non-empty string. */
  lemma JoinNonEmpty(xs: seq<string>)
    requires |xs| > 0 && xs[0] != ""
    ensures Join(xs, "/") != ""
  {
    if |xs| > 1 {
      assert Join(xs, "/") == xs[0] + "/" + Join(xs[1..], "/");
    }
  }

  /** The swap of a path whose segments start with `currentLang`, in joined form. */
  lemma SwapJoinedForm(pathname: string, currentLang: string, newLang: string)
    requires |Segments(pathname)| > 0 && Segments(pathname)[0] == currentLang
    ensures Swap(pathname, currentLang, newLang) == "/" + Join([newLang] + Segments(pathname)[1..], "/")
  {
    var rest := Segments(pathname)[1..];
    SegmentsAreValid(pathname);
    JoinWithHead(newLang, rest);
    if |rest| > 0 {
      JoinNonEmpty(rest);
    }
  }

  /**
   * When the first segment is `currentLang`, the swapped path has exactly the
   * original segments with the first one replaced by `newLang`, and it is normalized.
   */
  lemma SwapReplacesFirstSegment(pathname: string, currentLang: string, newLang: string)
    requires IsLocale(newLang)
    requires |Segments(pathname)| > 0 && Segments(pathname)[0] == currentLang
    ensures Segments(Swap(pathname, currentLang, newLang)) == [newLang] + Segments(pathname)[1..]
    ensures Normalized(Swap(pathname, currentLang, newLang))
  {
    var xs := [newLang] + Segments(pathname)[1..];
    SegmentsAreValid(pathname);
    LocaleShape(newLang);
    SwapJoinedForm(pathname, currentLang, newLang);
    assert ValidSegments(xs);
    SegmentsOfJoined(xs);
  }

  /** On the joined form with the locale in front, swapping from that locale to itself changes nothing. */
  lemma SwapFixesJoined(l: string, xs: seq<string>)
    requires IsLocale(l)
    requires ValidSegments(xs)
    ensures Swap("/" + Join([l] + xs, "/"), l, l) == "/" + Join([l] + xs, "/")
  {
    var p := "/" + Join([l] + xs, "/");
    LocaleShape(l);
    assert ValidSegments([l] + xs);
    SegmentsOfJoined([l] + xs);
    assert Segments(p)[1..] == xs;
    SwapJoinedForm(p, l, l);
  }

  /**
   * The swap is idempotent on its own outputs when the input was a
   * locale-prefixed or a normalized path: swapping the result again from
   * `newLang` to `newLang` returns it unchanged.
   */
  lemma SwapIdempotent(pathname: string, currentLang: string, newLang: string)
    requires IsLocale(newLang)
    requires (|Segments(pathname)| > 0 && Segments(pathname)[0] == currentLang) || Normalized(pathname)
    ensures var r := Swap(pathname, currentLang, newLang); Swap(r, newLang, newLang) == r
  {
    var segs := Segments(pathname);
    SegmentsAreValid(pathname);
    if |segs| > 0 && segs[0] == currentLang {
      SwapJoinedForm(pathname, currentLang, newLang);
      SwapFixesJoined(newLang, segs[1..]);
    } else {
      PrependedIsJoined(pathname, currentLang, newLang);
      SwapFixesJoined(newLang, segs);
    }
  }

  /** A normalized path that does not start with the current locale gets `/<newLang>` in front, as one more segment. */
  lemma PrependedIsJoined(pathname: string, currentLang: string, newLang: string)
    requires Normalized(pathname)
    requires !(|Segments(pathname)| > 0 && Segments(pathname)[0] == currentLang)
    ensures Swap(pathname, currentLang, newLang) == "/" + Join([newLang] + Segments(pathname), "/")
  {
    var segs := Segments(pathname);
    JoinWithHead(newLang, segs);
  }

  lemma SegmentsOfFooSlash()
    ensures Segments("/foo/") == ["foo"]
  {
    assert "/foo/" == "" + ['/'] + "foo/";
    SplitAfterPiece("", "foo/", '/');
    assert "foo/" == "foo" + ['/'] + "";
    SplitAfterPiece("foo", "", '/');
    assert Split("/foo/", '/') == ["", "foo", ""];
    assert NonEmpty(["", "foo", ""]) == ["foo"] by {
      assert ["", "foo", ""][1..] == ["foo", ""];
      assert ["foo", ""][1..] == [""];
      assert [""][1..] == [];
    }
  }

  lemma SegmentsOfEnFooSlash()
    ensures Segments("/en/foo/") == ["en", "foo"]
  {
    assert "/en/foo/" == "" + ['/'] + "en/foo/";
    SplitAfterPiece("", "en/foo/", '/');
    assert "en/foo/" == "en" + ['/'] + "foo/";
    SplitAfterPiece("en", "foo/", '/');
    assert "foo/" == "foo" + ['/'] + "";
    SplitAfterPiece("foo", "", '/');
    assert Split("/en/foo/", '/') == ["", "en", "foo", ""];
    assert NonEmpty(["", "en", "foo", ""]) == ["en", "foo"] by {
      assert ["", "en", "foo", ""][1..] == ["en", "foo", ""];
      assert ["en", "foo", ""][1..] == ["foo", ""];
      assert ["foo", ""][1..] == [""];
      assert [""][1..] == [];
    }
  }

  /** Without normalization the swap is not idempotent: a trailing slash survives the first swap and not the second. */
  lemma SwapDropsTrailingSlashOnSecondSwap()
    ensures Swap("/foo/", "de", "en") == "/en/foo/"
    ensures Swap("/en/foo/", "en", "en") == "/en/foo"
  {
    FirstSwapKeepsTrailingSlash();
    SecondSwapDropsTrailingSlash();
  }

  lemma FirstSwapKeepsTrailingSlash()
    ensures Swap("/foo/", "de", "en") == "/en/foo/"
  {
    SegmentsOfFooSlash();
    assert Segments("/foo/")[0] != "de";
  }

  lemma SecondSwapDropsTrailingSlash()
    ensures Swap("/en/foo/", "en", "en") == "/en/foo"
  {
    SegmentsOfEnFooSlash();
    var rest := Segments("/en/foo/")[1..];
    assert rest == ["foo"];
    assert Join(rest, "/") == "foo";
  }

  /** A document's `url` matches the blog pattern at its very start and captures the document's slug. */
  lemma UrlCapturesSlug(b: Blog)
    requires b.slug != "" && HasNoLineTerminator(b.slug)
    ensures BlogSlug(Url(b)) == Some(b.slug)
  {
    var u := Url(b);
    assert u[..PrefixLength] == "/" + b.lang + "/blog/";
    assert u[PrefixLength..] == b.slug;
    assert BlogMatchAt(u, 0);
  }

  /** A document's `url` begins with a supported locale segment, so the middleware forwards it. */
  lemma UrlHasLocaleSegment(b: Blog)
    ensures |Segments(Url(b))| >= 1 && IsLocale(Segments(Url(b))[0])
  {
    LocaleShape(b.lang);
    var u := Url(b);
    assert u == "" + ['/'] + (b.lang + "/" + "blog/" + b.slug);
    SplitAfterPiece("", b.lang + "/" + "blog/" + b.slug, '/');
    assert b.lang + "/" + "blog/" + b.slug == b.lang + ['/'] + ("blog/" + b.slug);
    SplitAfterPiece(b.lang, "blog/" + b.slug, '/');
    assert Split(u, '/') == ["", b.lang] + Split("blog/" + b.slug, '/');
    assert Segments(u) == NonEmpty([b.lang] + Split("blog/" + b.slug, '/'));
  }
}

=== FILE: middleware.dfy ===
/** The per-request routing decision of `middleware.ts`. */
module Middleware {
  import opened Optional
  import opened Strings
  import opened I18n

  /** What the middleware does with a request. */
  datatype Decision =
    | PassThrough                 // NextResponse.next() with the headers unchanged
    | Redirect(location: string)  // NextResponse.redirect to this path
    | Forward(lang: string)       // NextResponse.next() with `x-lang: lang` added

  /** Paths owned by the framework, the API routes and the favicon. */
  const SkipPrefixes: seq<string> := ["/_next", "/api", "/favicon"]

  predicate IsSkipped(pathname: string) {
    exists i :: 0 <= i < |SkipPrefixes| && StartsWith(pathname, SkipPrefixes[i])
  }

  /** `pathname.split('/')[1]`, which is `undefined` when the path holds no `/`. */
  function FirstSegment(pathname: string): Option<string> {
    var parts := Split(pathname, '/');
    if |parts| >= 2 then Some(parts[1]) else None
  }

  predicate HasLocalePrefix(pathname: string) {
    FirstSegment(pathname).Some? && IsLocale(FirstSegment(pathname).value)
  }

  /** The decision for one request path, given the configured default locale. */
  function Decide(pathname: string, defaultLocale: string): (d: Decision)
    ensures IsSkipped(pathname) ==> d == PassThrough
    ensures !IsSkipped(pathname) && (pathname == "/" || pathname == "") ==>
              d == Redirect("/" + defaultLocale)
    ensures !IsSkipped(pathname) && pathname != "/" && pathname != "" && !HasLocalePrefix(pathname) ==>
              d == Redirect("/" + defaultLocale + pathname)
    ensures !IsSkipped(pathname) && pathname != "/" && pathname != "" && HasLocalePrefix(pathname) ==>
              d == Forward(FirstSegment(pathname).value)
    ensures d.Forward? ==> IsLocale(d.lang) && Some(d.lang) == FirstSegment(pathname)
  {
    if IsSkipped(pathname) then
      PassThrough
    else if pathname == "/" || pathname == "" then
      Redirect("/" + defaultLocale)
    else
      var first := FirstSegment(pathname);
      if first.None? || !IsLocale(first.value) then Redirect("/" + defaultLocale + pathname)
      else Forward(first.value)
  }

  /** The `config.matcher`: the middleware runs only on paths that contain no `.`. */
  predicate MatcherApplies(pathname: string) {
    '.' !in pathname
  }

  /** The request as it leaves the routing layer: matcher first, then `Decide`. */
  function Route(pathname: string, defaultLocale: string): (d: Decision)
    ensures '.' in pathname ==> d == PassThrough
    ensures '.' !in pathname ==> d == Decide(pathname, defaultLocale)
  {
    if MatcherApplies(pathname) then Decide(pathname, defaultLocale) else PassThrough
  }

  // ---------------------------------------------------------------------------
  // No redirect loop
  // ---------------------------------------------------------------------------

  /** A path `"/" + L + rest`, with `L` free of `/` and a rest that is empty or starts a new segment, has `L` as first segment. */
  lemma {:induction false} FirstSegmentOfPrefixed(l: string, rest: string)
    requires '/' !in l
    requires rest == "" || rest[0] == '/'
    ensures FirstSegment("/" + l + rest) == Some(l)
  {
    var p := "/" + l + rest;
    assert p == "" + ['/'] + (l + rest);
    SplitAfterPiece("", l + rest, '/');
    if rest == "" {
      assert l + rest == l;
      SplitNoSeparator(l, '/');
    } else {
      assert l + rest == l + ['/'] + rest[1..];
      SplitAfterPiece(l, rest[1..], '/');
    }
  }

  /** A path that starts with `/de` or `/en` is never one of the skipped prefixes. */
  lemma LocalePrefixedNotSkipped(l: string, rest: string)
    requires IsLocale(l)
    ensures !IsSkipped("/" + l + rest)
  {
    var p := "/" + l + rest;
    assert p[1] == l[0];
    forall i | 0 <= i < |SkipPrefixes|
      ensures !StartsWith(p, SkipPrefixes[i])
    {
      assert SkipPrefixes[i][1] != p[1];
    }
  }

  /**
   * No redirect loop: when the default locale is supported and the request
   * path starts with `/`, the target of a redirect is forwarded with the
   * default locale on the next request.
   */
  lemma NoRedirectLoop(pathname: string, defaultLocale: string)
    requires IsLocale(defaultLocale)
    requires pathname == "" || pathname[0] == '/'
    requires Decide(pathname, defaultLocale).Redirect?
    ensures Decide(Decide(pathname, defaultLocale).location, defaultLocale) == Forward(defaultLocale)
  {
    var target := Decide(pathname, defaultLocale).location;
    LocaleShape(defaultLocale);
    if pathname == "/" || pathname == "" {
      assert target == "/" + defaultLocale + "";
      FirstSegmentOfPrefixed(defaultLocale, "");
      LocalePrefixedNotSkipped(defaultLocale, "");
    } else {
      FirstSegmentOfPrefixed(defaultLocale, pathname);
      LocalePrefixedNotSkipped(defaultLocale, pathname);
    }
  }

  /**
   * The default locale is taken from the environment unchecked. With an
   * unsupported one such as `fr` the redirects never end: `/` goes to `/fr`,
   * and every path under `/fr` goes to `/fr` followed by itself, which is
   * again a path under `/fr`.
   */
  lemma UnsupportedDefaultNeverSettles(rest: string)
    requires rest == "" || rest[0] == '/'
    ensures Decide("/", "fr") == Redirect("/fr")
    ensures Decide("/fr" + rest, "fr") == Redirect("/fr" + ("/fr" + rest))
  {
    var p := "/fr" + rest;
    assert p == "/" + "fr" + rest;
    FirstSegmentOfPrefixed("fr", rest);
    forall i | 0 <= i < |SkipPrefixes|
      ensures !StartsWith(p, SkipPrefixes[i])
    {
      assert SkipPrefixes[i][2] != p[2];
    }
  }

  /**
   * Even a path that does not start with `/` settles: at most two redirects
   * lead to a forwarded request.
   */
  lemma RedirectChainSettles(pathname: string, defaultLocale: string)
    requires IsLocale(defaultLocale)
    requires Decide(pathname, defaultLocale).Redirect?
    ensures var t := Decide(pathname, defaultLocale).location;
            Decide(t, defaultLocale) == Forward(defaultLocale)
            || (Decide(t, defaultLocale).Redirect?
                && Decide(Decide(t, defaultLocale).location, defaultLocale) == Forward(defaultLocale))
  {
    var t := Decide(pathname, defaultLocale).location;
    if pathname == "" || pathname[0] == '/' {
      NoRedirectLoop(pathname, defaultLocale);
    } else {
      // The first segment of t is the default locale glued to the start of
      // the path, three characters or more, so t is redirected once more,
      // and that second target starts with a slash.
      LocaleShape(defaultLocale);
      LocalePrefixedNotSkipped(defaultLocale, pathname);
      var x := defaultLocale + pathname;
      assert t == "" + ['/'] + x;
      SplitAfterPiece("", x, '/');
      SplitFirstPieceCovers(x, '/', 3);
      assert Decide(t, defaultLocale).Redirect?;
      NoRedirectLoop(t, defaultLocale);
    }
  }
}

=== FILE: newsletter.dfy ===
/** The `POST /api/newsletter` handler of `src/app/api/newsletter/route.ts`. */
module NewsletterRoute {
  import opened Optional
  import opened Email
  import opened Subscribers

  /** The JSON body; every member may be missing. */
  datatype NewsletterRequest = NewsletterRequest(
    email: Option<string>,
    lang: Option<string>,
    utm: Option<Object>,
    payload: Option<Object>)

  /** The truthy entries of the `payload` object, copied under their own names. */
  function PayloadFields(payload: Option<Object>): (fields: Object)
    ensures forall k :: k in fields <==> payload.Some? && k in payload.value && IsTruthy(payload.value[k])
    ensures forall k :: k in fields ==> fields[k] == payload.value[k]
  {
    if payload.None? then map[]
    else map k | k in payload.value && IsTruthy(payload.value[k]) :: payload.value[k]
  }

  /** `language` when the request names a language. */
  function LanguageField(lang: Option<string>): Object {
    if Truthy(lang) then map["language" := Str(lang.value)] else map[]
  }

  /**
   * The `fields` object: `language`, then the `utm_*` fields, then the
   * payload entries, each later one overwriting an earlier field of the same name.
   */
  function NewsletterFields(body: NewsletterRequest): (fields: Object)
    ensures forall k :: k in fields <==>
              k in LanguageField(body.lang) || k in UtmFields(body.utm) || k in PayloadFields(body.payload)
    ensures forall k :: k in PayloadFields(body.payload) ==> fields[k] == body.payload.value[k]
    ensures forall k :: k in UtmFields(body.utm) && k !in PayloadFields(body.payload) ==>
              fields[k] == UtmFields(body.utm)[k]
    ensures "language" in fields && "language" !in PayloadFields(body.payload) ==>
              fields["language"] == Str(body.lang.value)
  {
    assert "language"[3] != '_';
    LanguageField(body.lang) + UtmFields(body.utm) + PayloadFields(body.payload)
  }

  /**
   * `POST`: a body that is not JSON is a server error; a missing or invalid
   * address is rejected before the configuration is read; the address is
   * passed on exactly as given.
   */
  function Post(body: Option<NewsletterRequest>, env: Env): (o: Outcome)
    ensures body.None? ==> o == Rejected(500, "server_error")
    ensures body.Some? && !(Truthy(body.value.email) && IsValidEmail(body.value.email.value)) ==>
              o == Rejected(400, "invalid_email")
    ensures body.Some? && Truthy(body.value.email) && IsValidEmail(body.value.email.value) && !Truthy(env.apiToken) ==>
              o == Rejected(500, "server_error")
    ensures o.Submitted? <==>
              body.Some? && Truthy(body.value.email) && IsValidEmail(body.value.email.value) && Truthy(env.apiToken)
    ensures o.Submitted? ==>
              o.subscriber == MakeSubscriber(body.value.email.value, env, NewsletterFields(body.value))
  {
    match body
    case None => Rejected(500, "server_error")
    case Some(b) =>
      if !Truthy(b.email) || !IsValidEmail(b.email.value) then Rejected(400, "invalid_email")
      else if !Truthy(env.apiToken) then Rejected(500, "server_error")
      else Submitted(MakeSubscriber(b.email.value, env, NewsletterFields(b)))
  }

  /** A payload entry named like a UTM field replaces the UTM value. */
  lemma PayloadOverridesUtm(body: NewsletterRequest, key: string)
    requires body.utm.Some? && key in body.utm.value && IsTruthy(body.utm.value[key])
    requires body.payload.Some? && UtmFieldName(key) in body.payload.value
    requires IsTruthy(body.payload.value[UtmFieldName(key)])
    ensures NewsletterFields(body)[UtmFieldName(key)] == body.payload.value[UtmFieldName(key)]
  {
  }
}

=== FILE: optional.dfy ===
/** The `T | null` / `T | undefined` values of the original code. */
module Optional {

  datatype Option<+T> = None | Some(value: T) {

    /** The value, or `default` when absent (the `??` operator). */
    function GetOr(default: T): T {
      match this
      case Some(v) => v
      case None => default
    }
  }

  /** An outcome that is either a value or an error. */
  datatype Result<+T, +E> = Ok(value: T) | Err(error: E)

  /** A JavaScript string that may be absent is truthy exactly when present and non-empty. */
  predicate Truthy(s: Option<string>) {
    s.Some? && s.value != ""
  }

  /** `s || fallback` for a string that may be absent. */
  function Or(s: Option<string>, fallback: string): string {
    if Truthy(s) then s.value else fallback
  }
}

=== FILE: redirect.dfy ===
/** The outbound-offer redirect handler and its rate limiter, `src/app/api/redirect/route.ts`. */
module Redirect {
  import opened Optional
  import opened Strings

  const WindowMs: int := 60000
  const MaxPerWindow: int := 60

  /** One key's fixed window: requests counted so far and the instant the window ends. */
  datatype Slot = Slot(count: int, resetAt: int)

  /** The in-memory `bucket` map. */
  type Bucket = map<string, Slot>

  datatype Verdict = Allowed | Limited(retryAfterMs: int)

  datatype Step = Step(verdict: Verdict, bucket: Bucket)

  /** Every slot has counted between one and `MaxPerWindow` requests. */
  predicate ValidBucket(b: Bucket) {
    forall k :: k in b ==> 1 <= b[k].count <= MaxPerWindow
  }

  /**
   * `rateLimit(key)` at time `now`: a key seen for the first time, or whose
   * window has ended (`resetAt <= now`), opens a new window; a full window
   * rejects with the time left; otherwise the count goes up by one.
   */
  function RateLimit(b: Bucket, key: string, now: int): (s: Step)
    ensures key !in b || b[key].resetAt <= now ==>
              s == Step(Allowed, b[key := Slot(1, now + 60000)])
    ensures key in b && b[key].resetAt > now && b[key].count >= 60 ==>
              s == Step(Limited(b[key].resetAt - now), b)
    ensures key in b && b[key].resetAt > now && b[key].count < 60 ==>
              s == Step(Allowed, b[key := Slot(b[key].count + 1, b[key].resetAt)])
    ensures s.verdict.Limited? ==> s.verdict.retryAfterMs > 0
    ensures s.bucket.Keys == b.Keys + {key}
    ensures forall k :: k in b && k != key ==> s.bucket[k] == b[k]
    ensures ValidBucket(b) ==> ValidBucket(s.bucket)
  {
    if key !in b || b[key].resetAt <= now then
      Step(Allowed, b[key := Slot(1, now + WindowMs)])
    else if b[key].count >= MaxPerWindow then
      Step(Limited(b[key].resetAt - now), b)
    else
      Step(Allowed, b[key := Slot(b[key].count + 1, b[key].resetAt)])
  }

  /** The number of requests allowed when `key` calls at each of `times` in turn. */
  function AllowedCount(b: Bucket, key: string, times: seq<int>): nat
    decreases |times|
  {
    if |times| == 0 then 0
    else
      var s := RateLimit(b, key, times[0]);
      (if s.verdict.Allowed? then 1 else 0) + AllowedCount(s.bucket, key, times[1..])
  }

  /**
   * Inside an open window no more requests are allowed than the window has
   * room for, and the window end does not move.
   */
  lemma {:induction false} WindowRoom(b: Bucket, key: string, times: seq<int>)
    requires ValidBucket(b) && key in b
    requires forall i :: 0 <= i < |times| ==> times[i] < b[key].resetAt
    ensures AllowedCount(b, key, times) <= MaxPerWindow - b[key].count
    decreases |times|
  {
    if |times| > 0 {
      var s := RateLimit(b, key, times[0]);
      assert s.bucket[key].resetAt == b[key].resetAt;
      WindowRoom(s.bucket, key, times[1..]);
    }
  }

  /**
   * At most 60 requests of one key are allowed in one window: after a request
   * at `t0` that opens a window, the requests before `t0 + 60000` add at most 59.
   */
  lemma AtMostSixtyPerWindow(b: Bucket, key: string, t0: int, later: seq<int>)
    requires ValidBucket(b)
    requires key !in b || b[key].resetAt <= t0
    requires forall i :: 0 <= i < |later| ==> later[i] < t0 + WindowMs
    ensures AllowedCount(b, key, [t0] + later) <= MaxPerWindow
  {
    var s := RateLimit(b, key, t0);
    assert ([t0] + later)[1..] == later;
    WindowRoom(s.bucket, key, later);
  }

  /** `safeUrl` on a URL the platform parser has already read. */
  datatype ParsedUrl = Unparseable | Url(protocol: string, href: string)

  /** Only absolute `http:` and `https:` URLs are accepted, in their serialized form. */
  function SafeUrl(parsed: ParsedUrl): (r: Option<string>)
    ensures r.Some? <==> parsed.Url? && (parsed.protocol == "http:" || parsed.protocol == "https:")
    ensures r.Some? ==> r.value == parsed.href
  {
    match parsed
    case Unparseable => None
    case Url(protocol, href) =>
      if protocol != "http:" && protocol != "https:" then None else Some(href)
  }

  /** The `url` query parameter: its raw text and what the URL parser makes of it. */
  datatype OfferUrl = OfferUrl(raw: string, parsed: ParsedUrl)

  /** The parts of the request the handler reads. */
  datatype Request = Request(
    url: Option<OfferUrl>,
    offerId: Option<string>,
    utmSource: Option<string>,
    utmMedium: Option<string>,
    utmCampaign: Option<string>,
    forwardedFor: Option<string>,
    userAgent: Option<string>,
    referer: Option<string>)

  /** The row written to the click log. */
  datatype Click = Click(
    offerId: Option<string>,
    utmSource: Option<string>,
    utmMedium: Option<string>,
    utmCampaign: Option<string>,
    referer: Option<string>,
    ip: Option<string>,
    userAgent: Option<string>)

  datatype Response =
    | BadRequest                           // 400 "Missing or invalid url"
    | TooManyRequests(retryAfter: int)     // 429 with a `retry-after` header in seconds
    | TemporaryRedirect(location: string, click: Click)  // 307 after the click was offered to the log

  /** The client address: the first comma-separated `x-forwarded-for` token, trimmed. */
  function ClientIp(forwardedFor: Option<string>): (ip: Option<string>)
    ensures ip.Some? <==> forwardedFor.Some?
    ensures ip.Some? ==> ',' !in ip.value
    ensures forwardedFor.Some? && ',' !in forwardedFor.value ==> ip == Some(Trim(forwardedFor.value))
    ensures forall w, t :: forwardedFor == Some(w + "," + t) && ',' !in w ==> ip == Some(Trim(w))
  {
    match forwardedFor
    case None => None
    case Some(h) =>
      FirstTokenBeforeComma(h);
      if ',' !in h then SplitNoSeparator(h, ','); Some(Trim(Split(h, ',')[0]))
      else Some(Trim(Split(h, ',')[0]))
  }

  /** The first `,`-piece of a header is everything before its first comma. */
  lemma FirstTokenBeforeComma(h: string)
    ensures forall w, t :: h == w + "," + t && ',' !in w ==> Split(h, ',')[0] == w
  {
    forall w, t | h == w + "," + t && ',' !in w
      ensures Split(h, ',')[0] == w
    {
      assert w + "," + t == w + [','] + t;
      SplitAfterPiece(w, t, ',');
    }
  }

  /**
   * The rate-limit key: the client address when the header is present (even
   * if that token is empty), else the user agent when present, else "anon".
   */
  function RateKey(forwardedFor: Option<string>, userAgent: Option<string>): (key: string)
    ensures forwardedFor.Some? ==> key == Trim(Split(forwardedFor.value, ',')[0])
    ensures forwardedFor.None? && userAgent.Some? ==> key == userAgent.value
    ensures forwardedFor.None? && userAgent.None? ==> key == "anon"
  {
    ClientIp(forwardedFor).GetOr(userAgent.GetOr("anon"))
  }

  /** `Math.ceil(ms / 1000)` for a positive number of milliseconds. */
  function CeilSeconds(ms: int): (sec: int)
    requires ms > 0
    ensures (sec - 1) * 1000 < ms <= sec * 1000
    ensures sec >= 1
  {
    (ms + 999) / 1000
  }

  /** The handler's target: the `url` parameter when it is non-empty and a safe URL. */
  function Target(url: Option<OfferUrl>): (t: Option<string>)
    ensures t.Some? <==>
              url.Some? && url.value.raw != "" && url.value.parsed.Url?
              && (url.value.parsed.protocol == "http:" || url.value.parsed.protocol == "https:")
    ensures t.Some? ==> t.value == url.value.parsed.href
  {
    if url.Some? && url.value.raw != "" then SafeUrl(url.value.parsed) else None
  }

  datatype Outcome = Outcome(response: Response, bucket: Bucket)

  /**
   * `GET`: the URL is validated before the rate limiter is consulted; a limited
   * key gets 429; otherwise the click is logged and the client redirected.
   * A failure of the click log never changes the response.
   */
  function Get(req: Request, b: Bucket, now: int): (o: Outcome)
    ensures Target(req.url).None? ==> o == Outcome(BadRequest, b)
    ensures Target(req.url).Some? ==>
              var step := RateLimit(b, RateKey(req.forwardedFor, req.userAgent), now);
              o.bucket == step.bucket
              && (step.verdict.Limited? ==> o.response == TooManyRequests(CeilSeconds(step.verdict.retryAfterMs)))
              && (step.verdict.Allowed? ==> o.response.TemporaryRedirect? && o.response.location == Target(req.url).value)
    ensures o.response.TooManyRequests? ==> o.response.retryAfter >= 1
    ensures o.response.TemporaryRedirect? ==>
              var c := o.response.click;
              c.offerId == req.offerId && c.ip == ClientIp(req.forwardedFor) && c.userAgent == req.userAgent
              && c.utmSource == req.utmSource && c.utmMedium == req.utmMedium && c.utmCampaign == req.utmCampaign
              && c.referer == req.referer
  {
    match Target(req.url)
    case None => Outcome(BadRequest, b)
    case Some(target) =>
      var step := RateLimit(b, RateKey(req.forwardedFor, req.userAgent), now);
      match step.verdict
      case Limited(ms) => Outcome(TooManyRequests(CeilSeconds(ms)), step.bucket)
      case Allowed =>
        var click := Click(req.offerId, req.utmSource, req.utmMedium, req.utmCampaign,
                           req.referer, ClientIp(req.forwardedFor), req.userAgent);
        Outcome(TemporaryRedirect(target, click), step.bucket)
  }

  /** A present but blank `x-forwarded-for` keys the limiter on the empty string, not on the user agent. */
  lemma BlankForwardedForKeysOnEmpty(userAgent: Option<string>)
    ensures RateKey(Some(""), userAgent) == ""
  {
  }
}

=== FILE: related_blog.dfy ===
/** The `GET /api/related-blog` handler of `src/app/api/related-blog/route.ts`. */
module RelatedBlog {
  import opened Optional
  import opened Strings
  import opened I18n
  import opened Content
  import opened BlogUtils
  import opened LocalePath

  /** The JSON reply: `{ path }` with status 200, or `{ error }` with status 400. */
  datatype Reply = PathReply(path: string) | BadRequest(error: string)

  predicate AllPresent(slug: Option<string>, lang: Option<string>, targetLang: Option<string>, pathname: Option<string>) {
    Truthy(slug) && Truthy(lang) && Truthy(targetLang) && Truthy(pathname)
  }

  /**
   * The alternate-language path for `pathname`. A blog-detail path whose
   * captured slug is `slug` goes through the cross-language matcher, with the
   * target blog index as fallback; any other path gets the structural swap.
   */
  function Get(slug: Option<string>, lang: Option<string>, targetLang: Option<string>, pathname: Option<string>,
               posts: seq<Blog>): (r: Reply)
    ensures !AllPresent(slug, lang, targetLang, pathname) ==> r == BadRequest("Missing parameters")
    ensures AllPresent(slug, lang, targetLang, pathname) && !(IsLocale(lang.value) && IsLocale(targetLang.value)) ==>
              r == BadRequest("Invalid locale")
    ensures r.PathReply? <==> AllPresent(slug, lang, targetLang, pathname) && IsLocale(lang.value) && IsLocale(targetLang.value)
    ensures r.PathReply? ==> StartsWith(r.path, "/" + targetLang.value)
    ensures r.PathReply? && BlogSlug(pathname.value) == Some(slug.value) ==>
              var related := FindRelatedBlogPost(posts, slug.value, lang.value, targetLang.value);
              r.path == (if related.Some? then related.value else "/" + targetLang.value + "/blog")
    ensures r.PathReply? && BlogSlug(pathname.value) != Some(slug.value) ==>
              r.path == Swap(pathname.value, lang.value, targetLang.value)
  {
    if !AllPresent(slug, lang, targetLang, pathname) then BadRequest("Missing parameters")
    else if !IsLocale(lang.value) || !IsLocale(targetLang.value) then BadRequest("Invalid locale")
    else if BlogSlug(pathname.value) == Some(slug.value) then
      match FindRelatedBlogPost(posts, slug.value, lang.value, targetLang.value)
      case Some(path) =>
        assert StartsWith("/" + targetLang.value + "/blog/", "/" + targetLang.value);
        PathReply(path)
      case None =>
        assert ("/" + targetLang.value + "/blog")[..|"/" + targetLang.value|] == "/" + targetLang.value;
        PathReply("/" + targetLang.value + "/blog")
    else PathReply(Swap(pathname.value, lang.value, targetLang.value))
  }

  /** Swapping a path that is only the current locale yields exactly `/<targetLang>`. */
  lemma SwapOfBareLocale(lang: Locale, targetLang: Locale)
    ensures Swap("/" + lang, lang, targetLang) == "/" + targetLang
  {
    LocaleShape(lang);
    assert "/" + lang == "" + ['/'] + lang;
    SplitAfterPiece("", lang, '/');
    SplitNoSeparator(lang, '/');
    assert Split("/" + lang, '/') == ["", lang];
    assert NonEmpty(["", lang]) == [lang] by {
      assert ["", lang][1..] == [lang];
      assert [lang][1..] == [];
    }
  }

  /** A two-segment path `/<lang>/<w>` swaps to `/<targetLang>/<w>` (for example `/de/offers` to `/en/offers`). */
  lemma SwapTwoSegments(lang: Locale, targetLang: Locale, w: string)
    requires w != "" && '/' !in w
    ensures Swap("/" + lang + "/" + w, lang, targetLang) == "/" + targetLang + "/" + w
  {
    LocaleShape(lang);
    var p := "/" + lang + "/" + w;
    assert [lang, w][1..] == [w];
    assert Join([lang, w], "/") == lang + "/" + w;
    assert p == "/" + Join([lang, w], "/");
    SegmentsOfJoined([lang, w]);
    SwapJoinedForm(p, lang, targetLang);
    assert [targetLang] + [w] == [targetLang, w];
    assert [targetLang, w][1..] == [w];
  }

  /** A one-segment path that is not the current locale gets `/<targetLang>` in front (`/foo` to `/en/foo`). */
  lemma SwapUnprefixedSegment(lang: Locale, targetLang: Locale, w: string)
    requires w != "" && '/' !in w && w != lang
    ensures Swap("/" + w, lang, targetLang) == "/" + targetLang + "/" + w
  {
    assert [w][1..] == [];
    SegmentsOfJoined([w]);
  }
}

=== FILE: sitemap.dfy ===
/** The sitemap of `src/app/sitemap.ts`: the site's base URL, the static pages and one entry per blog post. */
module Sitemap {
  import opened Optional
  import opened I18n
  import opened Content
  import opened Middleware

  /** The base URL used when `NEXT_PUBLIC_SITE_URL` is not set. */
  const DefaultSiteUrl: string := "http://localhost:3000"

  /** `baseUrl`: the configured site URL (or the default) with one trailing `/` removed, if there is one. */
  function BaseUrl(env: Option<string>): (base: string)
    ensures var raw := env.GetOr(DefaultSiteUrl);
            (|raw| > 0 && raw[|raw| - 1] == '/' ==> base + "/" == raw)
            && (!(|raw| > 0 && raw[|raw| - 1] == '/') ==> base == raw)
  {
    var raw := env.GetOr(DefaultSiteUrl);
    if |raw| > 0 && raw[|raw| - 1] == '/' then raw[..|raw| - 1] else raw
  }

  /** When an entry was last modified: the time the sitemap is built, or the post's `date`. */
  datatype LastModified = BuildTime | PostDate(date: string)

  datatype Entry = Entry(url: string, lastModified: LastModified)

  /** The static pages, as locale and the path after it: home, blog, privacy and terms, German before English. */
  const StaticRoutes: seq<(Locale, string)> := [
    ("de", ""), ("en", ""),
    ("de", "/blog"), ("en", "/blog"),
    ("de", "/privacy"), ("en", "/privacy"),
    ("de", "/terms"), ("en", "/terms")
  ]

  function StaticPath(i: nat): string
    requires i < |StaticRoutes|
  {
    "/" + StaticRoutes[i].0 + StaticRoutes[i].1
  }

  /** One entry per post, in collection order: the base URL followed by the post's `url`, dated by the post. */
  function PostEntries(base: string, posts: seq<Blog>): (es: seq<Entry>)
    ensures |es| == |posts|
    ensures forall i :: 0 <= i < |posts| ==> es[i] == Entry(base + Url(posts[i]), PostDate(posts[i].date))
  {
    if |posts| == 0 then [] else [Entry(base + Url(posts[0]), PostDate(posts[0].date))] + PostEntries(base, posts[1..])
  }

  /** The sitemap: the 8 static entries, then the post entries. */
  function Sitemap(base: string, posts: seq<Blog>): (es: seq<Entry>)
    ensures |es| == 8 + |posts|
    ensures forall i :: 0 <= i < 8 ==> es[i] == Entry(base + StaticPath(i), BuildTime)
    ensures forall i :: 0 <= i < |posts| ==> es[8 + i] == Entry(base + Url(posts[i]), PostDate(posts[i].date))
  {
    seq(8, i requires 0 <= i < 8 => Entry(base + StaticPath(i), BuildTime)) + PostEntries(base, posts)
  }

  // ---------------------------------------------------------------------------
  // Lemmas
  // ---------------------------------------------------------------------------

  /** Appending one `/` to a site URL and taking the base gives the URL back; a URL without one is kept. */
  lemma BaseUrlStripsExactlyOne(raw: string)
    ensures BaseUrl(Some(raw + "/")) == raw
    ensures (|raw| == 0 || raw[|raw| - 1] != '/') ==> BaseUrl(Some(raw)) == raw
  {
    assert (raw + "/")[..|raw|] == raw;
  }

  /** Every locale has each of the four static pages. */
  lemma StaticPagesForEachLocale(l: Locale, page: string)
    requires page in ["", "/blog", "/privacy", "/terms"]
    ensures exists i :: 0 <= i < |StaticRoutes| && StaticRoutes[i] == (l, page)
  {
    if l == "de" {
      if page == "" { assert StaticRoutes[0] == (l, page); }
      else if page == "/blog" { assert StaticRoutes[2] == (l, page); }
      else if page == "/privacy" { assert StaticRoutes[4] == (l, page); }
      else { assert StaticRoutes[6] == (l, page); }
    } else {
      if page == "" { assert StaticRoutes[1] == (l, page); }
      else if page == "/blog" { assert StaticRoutes[3] == (l, page); }
      else if page == "/privacy" { assert StaticRoutes[5] == (l, page); }
      else { assert StaticRoutes[7] == (l, page); }
    }
  }

  /** A path that starts with a locale segment is forwarded by the middleware with that locale. */
  lemma PrefixedForwarded(l: Locale, rest: string, defaultLocale: string)
    requires rest == "" || rest[0] == '/'
    ensures Decide("/" + l + rest, defaultLocale) == Forward(l)
  {
    LocaleShape(l);
    LocalePrefixedNotSkipped(l, rest);
    FirstSegmentOfPrefixed(l, rest);
    assert |"/" + l + rest| >= 3;
  }

  /** Every static page of the sitemap is served in its own locale, without a redirect. */
  lemma StaticPagesForwarded(i: nat, defaultLocale: string)
    requires i < |StaticRoutes|
    ensures Route(StaticPath(i), defaultLocale) == Forward(StaticRoutes[i].0)
  {
    var (l, rest) := StaticRoutes[i];
    PrefixedForwarded(l, rest, defaultLocale);
    LocaleShape(l);
    assert '.' !in StaticPath(i);
  }

  /** Every post of the sitemap is served in its own language, without a redirect, unless its slug holds a `.`. */
  lemma PostPagesForwarded(b: Blog, defaultLocale: string)
    ensures Decide(Url(b), defaultLocale) == Forward(b.lang)
    ensures '.' !in b.slug ==> Route(Url(b), defaultLocale) == Forward(b.lang)
  {
    assert Url(b) == "/" + b.lang + ("/blog/" + b.slug);
    PrefixedForwarded(b.lang, "/blog/" + b.slug, defaultLocale);
    LocaleShape(b.lang);
    if '.' !in b.slug {
      assert '.' !in Url(b);
    }
  }
}

=== FILE: strings.dfy ===
/**
 * The JavaScript string operations the site relies on: `split`, `join`,
 * `filter(Boolean)`, `trim`, `toLowerCase`, `startsWith`, the regex class `\s`
 * and the regex wildcard `.`, stated over `seq<char>`.
 */
module Strings {

  /** The characters matched by the regex class `\s`, which are also those `trim` strips. */
  predicate IsJsSpace(c: char) {
    c == '\t' || c == '\n' || c == '\U{B}' || c == '\U{C}' || c == '\r' || c == ' '
    || c == '\U{A0}' || c == '\U{1680}' || ('\U{2000}' <= c <= '\U{200A}')
    || c == '\U{2028}' || c == '\U{2029}' || c == '\U{202F}' || c == '\U{205F}'
    || c == '\U{3000}' || c == '\U{FEFF}'
  }

  /** The line terminators, the only characters the regex wildcard `.` does not match. */
  predicate IsLineTerminator(c: char) {
    c == '\n' || c == '\r' || c == '\U{2028}' || c == '\U{2029}'
  }

  predicate HasNoLineTerminator(s: string) {
    forall i :: 0 <= i < |s| ==> !IsLineTerminator(s[i])
  }

  predicate StartsWith(s: string, prefix: string) {
    |prefix| <= |s| && s[..|prefix|] == prefix
  }

  /** `parts.join(sep)`. */
  function Join(parts: seq<string>, sep: string): string {
    if |parts| == 0 then ""
    else if |parts| == 1 then parts[0]
    else parts[0] + sep + Join(parts[1..], sep)
  }

  /** `s.split(sep)` for a one-character separator: never empty, and no piece holds `sep`. */
  function Split(s: string, sep: char): (parts: seq<string>)
    ensures |parts| >= 1
    ensures forall i :: 0 <= i < |parts| ==> sep !in parts[i]
  {
    if |s| == 0 then [""]
    else if s[0] == sep then [""] + Split(s[1..], sep)
    else
      var rest := Split(s[1..], sep);
      [[s[0]] + rest[0]] + rest[1..]
  }

  /** `xs.filter(Boolean)` on strings: drops the empty ones, keeps the order. */
  function NonEmpty(xs: seq<string>): (ys: seq<string>)
    ensures |ys| <= |xs|
    ensures forall i :: 0 <= i < |ys| ==> ys[i] != "" && ys[i] in xs
    ensures forall x :: x in xs && x != "" ==> x in ys
  {
    if |xs| == 0 then []
    else if xs[0] == "" then NonEmpty(xs[1..])
    else [xs[0]] + NonEmpty(xs[1..])
  }

  /** `path.split('/').filter(Boolean)`: the non-empty path segments. */
  function Segments(path: string): seq<string> {
    NonEmpty(Split(path, '/'))
  }

  /** Leading `\s` characters removed. */
  function TrimStart(s: string): (r: string)
    ensures |r| <= |s| && r == s[|s| - |r|..]
    ensures forall k :: 0 <= k < |s| - |r| ==> IsJsSpace(s[k])
    ensures r == [] || !IsJsSpace(r[0])
  {
    if |s| > 0 && IsJsSpace(s[0]) then TrimStart(s[1..]) else s
  }

  /** Trailing `\s` characters removed. */
  function TrimEnd(s: string): (r: string)
    ensures |r| <= |s| && r == s[..|r|]
    ensures forall k :: |r| <= k < |s| ==> IsJsSpace(s[k])
    ensures r == [] || !IsJsSpace(r[|r| - 1])
  {
    if |s| > 0 && IsJsSpace(s[|s| - 1]) then TrimEnd(s[..|s| - 1]) else s
  }

  /** `s.trim()`. */
  function Trim(s: string): (r: string)
    ensures |r| <= |s|
    ensures r == [] || (!IsJsSpace(r[0]) && !IsJsSpace(r[|r| - 1]))
    ensures r == [] <==> forall k :: 0 <= k < |s| ==> IsJsSpace(s[k])
    ensures forall c :: c in r ==> c in s
  {
    TrimEnd(TrimStart(s))
  }

  /** `toLowerCase` on one character; only the ASCII letters are modelled. */
  function LowerChar(c: char): (d: char)
    ensures !('A' <= d <= 'Z')
    ensures IsJsSpace(d) <==> IsJsSpace(c)
  {
    if 'A' <= c <= 'Z' then (c as int + 32) as char else c
  }

  /** `s.toLowerCase()`, ASCII letters only. */
  function ToLower(s: string): (r: string)
    ensures |r| == |s|
    ensures forall i :: 0 <= i < |s| ==> r[i] == LowerChar(s[i])
  {
    seq(|s|, i requires 0 <= i < |s| => LowerChar(s[i]))
  }

  /** `s.replace(/c/g, rep)` for a single character `c`. */
  function ReplaceChar(s: string, c: char, rep: string): string {
    if |s| == 0 then ""
    else (if s[0] == c then rep else [s[0]]) + ReplaceChar(s[1..], c, rep)
  }

  /** The decimal digits of `n`, as `String(n)` renders a non-negative integer. */
  function NatToString(n: nat): (r: string)
    ensures |r| >= 1
    ensures forall i :: 0 <= i < |r| ==> '0' <= r[i] <= '9'
  {
    if n < 10 then [Digit(n)] else NatToString(n / 10) + [Digit(n % 10)]
  }

  function Digit(d: nat): (c: char)
    requires d < 10
    ensures '0' <= c <= '9'
  {
    "0123456789"[d]
  }

  /** The number a string of decimal digits denotes. */
  function ParseDigits(s: string): nat
    requires forall i :: 0 <= i < |s| ==> '0' <= s[i] <= '9'
  {
    if |s| == 0 then 0 else ParseDigits(s[..|s| - 1]) * 10 + ((s[|s| - 1] as int) - ('0' as int))
  }

  // ---------------------------------------------------------------------------
  // Lemmas
  // ---------------------------------------------------------------------------

  /** Rendering then reading back a number gives the number: `NatToString` is a faithful decimal rendering. */
  lemma {:induction false} NatToStringRoundTrip(n: nat)
    ensures ParseDigits(NatToString(n)) == n
  {
    if n >= 10 {
      var s := NatToString(n);
      assert s[..|s| - 1] == NatToString(n / 10);
      NatToStringRoundTrip(n / 10);
      assert "0123456789"[n % 10] as int - '0' as int == n % 10;
    } else {
      assert "0123456789"[n] as int - '0' as int == n;
    }
  }

  /** A string without the separator splits into itself alone. */
  lemma {:induction false} SplitNoSeparator(w: string, sep: char)
    requires sep !in w
    ensures Split(w, sep) == [w]
  {
    if |w| > 0 {
      SplitNoSeparator(w[1..], sep);
      assert [w[0]] + w[1..] == w;
    }
  }

  /** The first piece of a split reaches at least as far as the first separator. */
  lemma {:induction false} SplitFirstPieceCovers(s: string, sep: char, k: nat)
    requires k <= |s|
    requires forall i :: 0 <= i < k ==> s[i] != sep
    ensures |Split(s, sep)[0]| >= k
  {
    if k > 0 {
      SplitFirstPieceCovers(s[1..], sep, k - 1);
    }
  }

  /** Splitting `w + sep + t` yields `w` followed by the pieces of `t`. */
  lemma {:induction false} SplitAfterPiece(w: string, t: string, sep: char)
    requires sep !in w
    ensures Split(w + [sep] + t, sep) == [w] + Split(t, sep)
  {
    var s := w + [sep] + t;
    if |w| == 0 {
      assert s[1..] == t;
    } else {
      assert s[1..] == w[1..] + [sep] + t;
      SplitAfterPiece(w[1..], t, sep);
      assert [w[0]] + w[1..] == w;
    }
  }

  /** Splitting undoes joining, as long as no piece contains the separator. */
  lemma {:induction false} SplitJoin(xs: seq<string>, sep: char)
    requires |xs| >= 1
    requires forall i :: 0 <= i < |xs| ==> sep !in xs[i]
    ensures Split(Join(xs, [sep]), sep) == xs
  {
    if |xs| == 1 {
      SplitNoSeparator(xs[0], sep);
    } else {
      SplitJoin(xs[1..], sep);
      SplitAfterPiece(xs[0], Join(xs[1..], [sep]), sep);
      assert [xs[0]] + xs[1..] == xs;
    }
  }

  /** Joining undoes splitting: the pieces of `s` with the separator between them are `s` again. */
  lemma {:induction false} JoinSplit(s: string, sep: char)
    ensures Join(Split(s, sep), [sep]) == s
  {
    if |s| > 0 {
      var rest := Split(s[1..], sep);
      JoinSplit(s[1..], sep);
      if s[0] == sep {
        assert Split(s, sep) == [""] + rest;
        assert ([""] + rest)[1..] == rest;
      } else {
        var parts := [[s[0]] + rest[0]] + rest[1..];
        assert Split(s, sep) == parts;
        if |rest| == 1 {
          assert Join(parts, [sep]) == [s[0]] + rest[0];
        } else {
          assert parts[1..] == rest[1..];
          assert Join(parts, [sep]) == [s[0]] + rest[0] + [sep] + Join(rest[1..], [sep]);
        }
        assert [s[0]] + s[1..] == s;
      }
    }
  }

  /** Filtering a sequence with no empty string changes nothing. */
  lemma {:induction false} NonEmptyKeepsNonEmpty(xs: seq<string>)
    requires forall i :: 0 <= i < |xs| ==> xs[i] != ""
    ensures NonEmpty(xs) == xs
  {
    if |xs| > 0 {
      NonEmptyKeepsNonEmpty(xs[1..]);
      assert [xs[0]] + xs[1..] == xs;
    }
  }

  /**
   * The segments of `"/" + xs.join("/")` are exactly `xs` when every piece is a
   * non-empty string without `/`: the segment view of a normalized path loses nothing.
   */
  lemma SegmentsOfJoined(xs: seq<string>)
    requires |xs| >= 1
    requires forall i :: 0 <= i < |xs| ==> xs[i] != "" && '/' !in xs[i]
    ensures Segments("/" + Join(xs, "/")) == xs
  {
    var ys := [""] + xs;
    assert ys[1..] == xs;
    assert Join(ys, "/") == "/" + Join(xs, "/");
    SplitJoin(ys, '/');
    NonEmptyKeepsNonEmpty(xs);
  }

  /** A string that holds no `\s` character is its own trim. */
  lemma TrimWithoutSpace(s: string)
    requires forall i :: 0 <= i < |s| ==> !IsJsSpace(s[i])
    ensures Trim(s) == s
  {
  }

  /** Trimming twice is trimming once. */
  lemma TrimIdempotent(s: string)
    ensures Trim(Trim(s)) == Trim(s)
  {
    var t := Trim(s);
    var u := TrimStart(s);
    if |t| > 0 {
      assert t[0] == u[0];
    }
  }

  /** Leading whitespace before a non-space character is exactly what `TrimStart` removes. */
  lemma {:induction false} TrimStartFrame(pre: string, rest: string)
    requires forall i :: 0 <= i < |pre| ==> IsJsSpace(pre[i])
    requires |rest| > 0 && !IsJsSpace(rest[0])
    ensures TrimStart(pre + rest) == rest
    decreases |pre|
  {
    if pre == [] {
      assert pre + rest == rest;
    } else {
      assert (pre + rest)[1..] == pre[1..] + rest;
      TrimStartFrame(pre[1..], rest);
    }
  }

  /** Trailing whitespace after a non-space character is exactly what `TrimEnd` removes. */
  lemma {:induction false} TrimEndFrame(rest: string, post: string)
    requires forall i :: 0 <= i < |post| ==> IsJsSpace(post[i])
    requires |rest| > 0 && !IsJsSpace(rest[|rest| - 1])
    ensures TrimEnd(rest + post) == rest
    decreases |post|
  {
    if post == [] {
      assert rest + post == rest;
    } else {
      var s := rest + post;
      assert s[..|s| - 1] == rest + post[..|post| - 1];
      TrimEndFrame(rest, post[..|post| - 1]);
    }
  }

  /** Trimming a string framed by whitespace, whose core starts and ends with a non-space, yields the core. */
  lemma TrimFrame(pre: string, core: string, post: string)
    requires forall i :: 0 <= i < |pre| ==> IsJsSpace(pre[i])
    requires forall i :: 0 <= i < |post| ==> IsJsSpace(post[i])
    requires |core| > 0 && !IsJsSpace(core[0]) && !IsJsSpace(core[|core| - 1])
    ensures Trim(pre + core + post) == core
  {
    assert pre + core + post == pre + (core + post);
    TrimStartFrame(pre, core + post);
    TrimEndFrame(core, post);
  }

  /** Replacing a character is splitting at it and joining with the replacement. */
  lemma {:induction false} ReplaceCharIsSplitJoin(s: string, c: char, rep: string)
    ensures ReplaceChar(s, c, rep) == Join(Split(s, c), rep)
  {
    if |s| > 0 {
      ReplaceCharIsSplitJoin(s[1..], c, rep);
      var rest := Split(s[1..], c);
      if s[0] == c {
        assert Split(s, c) == [""] + rest;
        assert ([""] + rest)[1..] == rest;
      } else {
        var parts := [[s[0]] + rest[0]] + rest[1..];
        assert Split(s, c) == parts;
        if |rest| > 1 {
          assert parts[1..] == rest[1..];
        }
      }
    }
  }
}

=== FILE: subscribers.dfy ===
/**
 * The subscriber record the trip-planning and newsletter routes send to the
 * mailing-list service, and the `fields` map both build from request data.
 */
module Subscribers {
  import opened Optional

  /** A JSON value of a request field typed `unknown`; an object or an array is `Composite`. */
  datatype Value = Str(s: string) | Num(n: real) | Bool(b: bool) | Null | Composite

  /** JavaScript truthiness of a JSON value. */
  predicate IsTruthy(v: Value) {
    match v
    case Str(s) => s != ""
    case Num(n) => n != 0.0
    case Bool(b) => b
    case Null => false
    case Composite => true
  }

  /** A JSON object, as its key/value pairs. */
  type Object = map<string, Value>

  /** `"utm_" + key`, the field name under which a UTM entry is sent. */
  function UtmFieldName(key: string): (name: string)
    ensures |name| == |key| + 4 && name[..4] == "utm_" && name[4..] == key
  {
    "utm_" + key
  }

  /**
   * The `utm_*` fields: every truthy entry `(k, v)` of the request's `utm`
   * object becomes the field `"utm_" + k` with value `v`; falsy ones are dropped.
   */
  function UtmFields(utm: Option<Object>): (fields: Object)
    ensures forall k :: k in fields ==> |k| >= 4 && k[..4] == "utm_"
    ensures forall k :: k in fields ==>
              utm.Some? && k[4..] in utm.value && IsTruthy(utm.value[k[4..]]) && fields[k] == utm.value[k[4..]]
    ensures forall u :: utm.Some? && u in utm.value && IsTruthy(utm.value[u]) ==>
              UtmFieldName(u) in fields && fields[UtmFieldName(u)] == utm.value[u]
  {
    if utm.None? then map[]
    else
      var src := utm.value;
      map k | k in (set u | u in src && IsTruthy(src[u]) :: UtmFieldName(u)) :: src[k[4..]]
  }

  /** The subscriber object: `email`, `status`, then `groups` and `fields` only when there is something to send. */
  datatype Subscriber = Subscriber(email: string, status: string, groups: Option<seq<string>>, fields: Option<Object>)

  /** The server configuration the routes read. */
  datatype Env = Env(apiToken: Option<string>, groupId: Option<string>)

  /**
   * The subscriber record: always `active`; `groups` is `[groupId]` when a
   * group is configured; `fields` is attached only when non-empty.
   */
  function MakeSubscriber(email: string, env: Env, fields: Object): (s: Subscriber)
    ensures s.email == email && s.status == "active"
    ensures s.groups.Some? <==> Truthy(env.groupId)
    ensures s.groups.Some? ==> s.groups.value == [env.groupId.value]
    ensures s.fields.Some? <==> |fields| > 0
    ensures s.fields.Some? ==> s.fields.value == fields
  {
    Subscriber(email, "active",
               if Truthy(env.groupId) then Some([env.groupId.value]) else None,
               if |fields| > 0 then Some(fields) else None)
  }

  /** The JSON reply of a form route: an error code with its status, or the record that is sent on. */
  datatype Outcome = Rejected(status: int, error: string) | Submitted(subscriber: Subscriber)
}

=== FILE: tour_faq.dfy ===
/** The single-open accordion of `src/components/TourFAQ.tsx`. */
module TourFaq {
  import opened Optional

  /** The accordion's state: the index of the open item, if any. */
  datatype Faq = Faq(openIndex: Option<int>)

  /** Initially every item is closed. */
  const Initial: Faq := Faq(None)

  /** Whether item `index` is shown open. */
  predicate IsOpen(f: Faq, index: int) {
    f.openIndex == Some(index)
  }

  /** `toggleQuestion`: clicking the open item closes it; clicking any other item opens that one instead. */
  function Toggle(f: Faq, index: int): (g: Faq)
    ensures IsOpen(f, index) ==> forall j :: !IsOpen(g, j)
    ensures !IsOpen(f, index) ==> IsOpen(g, index) && forall j :: j != index ==> !IsOpen(g, j)
  {
    if f.openIndex == Some(index) then Faq(None) else Faq(Some(index))
  }

  /** The state after a series of clicks, in order. */
  function Clicks(f: Faq, clicks: seq<int>): Faq
    decreases |clicks|
  {
    if |clicks| == 0 then f else Clicks(Toggle(f, clicks[0]), clicks[1..])
  }

  /** No item is open before the first click. */
  lemma InitiallyClosed(index: int)
    ensures !IsOpen(Initial, index)
  {
  }

  /** Whatever the state, at most one item is open. */
  lemma AtMostOneOpen(f: Faq, i: int, j: int)
    requires IsOpen(f, i) && IsOpen(f, j)
    ensures i == j
  {
  }

  /**
   * After clicks starting from all-closed, the open item, if any, is the
   * last one clicked; so it is one of the rendered items when every click was.
   */
  lemma {:induction false} OpenIsLastClicked(f: Faq, clicks: seq<int>, n: int)
    requires f.openIndex.Some? ==> 0 <= f.openIndex.value < n
    requires forall k :: 0 <= k < |clicks| ==> 0 <= clicks[k] < n
    ensures var g := Clicks(f, clicks);
            g.openIndex.Some? ==> 0 <= g.openIndex.value < n
    ensures |clicks| > 0 ==> var g := Clicks(f, clicks);
            g.openIndex.None? || g.openIndex == Some(clicks[|clicks| - 1])
    decreases |clicks|
  {
    if |clicks| > 0 {
      var rest := clicks[1..];
      OpenIsLastClicked(Toggle(f, clicks[0]), rest, n);
      if |rest| > 0 {
        assert rest[|rest| - 1] == clicks[|clicks| - 1];
      }
    }
  }

  /** Clicking the same item again and again from all-closed opens it exactly on the odd clicks. */
  lemma {:induction false} SameItemAlternates(index: int, k: nat)
    ensures IsOpen(Clicks(Initial, seq(k, _ => index)), index) <==> k % 2 == 1
    ensures !IsOpen(Clicks(Initial, seq(k, _ => index)), index) ==> Clicks(Initial, seq(k, _ => index)) == Initial
  {
    if k > 0 {
      var cs := seq(k, _ => index);
      var prev := seq(k - 1, _ => index);
      SameItemAlternates(index, k - 1);
      ClicksAppend(Initial, prev, index);
      assert cs == prev + [index];
    }
  }

  lemma {:induction false} ClicksAppend(f: Faq, clicks: seq<int>, last: int)
    ensures Clicks(f, clicks + [last]) == Toggle(Clicks(f, clicks), last)
    decreases |clicks|
  {
    if |clicks| == 0 {
      assert clicks + [last] == [last];
    } else {
      assert (clicks + [last])[1..] == clicks[1..] + [last];
      ClicksAppend(Toggle(f, clicks[0]), clicks[1..], last);
    }
  }
}

=== FILE: tour_question.dfy ===
/** The `POST /api/tour-question` handler of `src/app/api/tour-question/route.ts`. */
module TourQuestionRoute {
  import opened Optional
  import opened Strings
  import opened Email

  /** The JSON body; every member may be missing. */
  datatype QuestionRequest = QuestionRequest(
    name: Option<string>,
    email: Option<string>,
    question: Option<string>,
    tourId: Option<string>,
    tourTitle: Option<string>)

  /** The message prepared for the site owner. */
  datatype Mail = Mail(to: string, subject: string, text: string, html: string)

  /** The JSON reply: an error code with its status, or `ok: true` with the prepared message. */
  datatype Reply = Rejected(status: int, error: string) | Sent(mail: Mail)

  const Recipient: string := "mykola.zagoruyko@gmail.com"

  /** `Tour Question: <title>`, or `Tour Question: Tour Inquiry` without a title. */
  function Subject(tourTitle: Option<string>): (s: string)
    ensures Truthy(tourTitle) ==> s == "Tour Question: " + tourTitle.value
    ensures !Truthy(tourTitle) ==> s == "Tour Question: Tour Inquiry"
  {
    "Tour Question: " + Or(tourTitle, "Tour Inquiry")
  }

  /** The title, id and name as the message shows them, with their placeholders. */
  function TitleShown(tourTitle: Option<string>): string { Or(tourTitle, "N/A") }
  function IdShown(tourId: Option<string>): string { Or(tourId, "N/A") }
  function NameShown(name: Option<string>): string { Or(name, "Not provided") }

  /** The plain-text body between the template's framing whitespace. */
  function TextCore(b: QuestionRequest, email: string, question: string): string {
    "New question about tour:\n\nTour: " + TitleShown(b.tourTitle) + " (ID: " + IdShown(b.tourId) + ")\nName: "
    + NameShown(b.name) + "\nEmail: " + email + "\nQuestion: " + question
    + "\n\n---\nSent from Madeira360 website"
  }

  /** The plain-text body: the template literal, trimmed, which removes only its framing newline and indentation. */
  function Text(b: QuestionRequest, email: string, question: string): (t: string)
    ensures t == TextCore(b, email, question)
  {
    var core := TextCore(b, email, question);
    assert core[0] == 'N';
    assert core[|core| - 1] == 'e';
    TrimFrame("\n", core, "\n      ");
    Trim("\n" + core + "\n      ")
  }

  /** The question as HTML: every `\n` becomes `<br>`. */
  function HtmlQuestion(question: string): string {
    ReplaceChar(question, '\n', "<br>")
  }

  /** The HTML body: the template, with the question's lines joined by `<br>`. */
  function Html(b: QuestionRequest, email: string, question: string): (h: string)
    ensures h == HtmlFrame(b, email, Join(Split(question, '\n'), "<br>"))
    ensures '\n' !in question ==> h == HtmlFrame(b, email, question)
  {
    HtmlQuestionReplacesLineBreaks(question);
    HtmlFrame(b, email, HtmlQuestion(question))
  }

  /** The HTML template, indentation included, around the question as it is to be shown. */
  function HtmlFrame(b: QuestionRequest, email: string, questionHtml: string): string {
    "\n        <h2>New Tour Question</h2>\n        <p><strong>Tour:</strong> " + TitleShown(b.tourTitle)
    + " (ID: " + IdShown(b.tourId) + ")</p>\n        <p><strong>Name:</strong> " + NameShown(b.name)
    + "</p>\n        <p><strong>Email:</strong> " + email + "</p>\n        <p><strong>Question:</strong></p>\n        <p>"
    + questionHtml + "</p>\n        <hr>\n        <p><em>Sent from Madeira360 website</em></p>\n      "
  }

  /** A question that is missing or holds only whitespace. */
  predicate QuestionBlank(question: Option<string>) {
    !Truthy(question) || |Trim(question.value)| == 0
  }

  /**
   * `POST`: a body that is not JSON is a server error; the address is checked
   * first, then the question; valid input yields the prepared message.
   */
  function Post(body: Option<QuestionRequest>): (r: Reply)
    ensures body.None? ==> r == Rejected(500, "server_error")
    ensures body.Some? && !(Truthy(body.value.email) && IsValidEmail(body.value.email.value)) ==>
              r == Rejected(400, "invalid_email")
    ensures body.Some? && Truthy(body.value.email) && IsValidEmail(body.value.email.value) && QuestionBlank(body.value.question) ==>
              r == Rejected(400, "question_required")
    ensures r.Sent? <==>
              body.Some? && Truthy(body.value.email) && IsValidEmail(body.value.email.value) && !QuestionBlank(body.value.question)
    ensures r.Sent? ==>
              r.mail.to == Recipient && r.mail.subject == Subject(body.value.tourTitle)
              && r.mail.text == TextCore(body.value, body.value.email.value, body.value.question.value)
              && r.mail.html == Html(body.value, body.value.email.value, body.value.question.value)
  {
    match body
    case None => Rejected(500, "server_error")
    case Some(b) =>
      if !Truthy(b.email) || !IsValidEmail(b.email.value) then Rejected(400, "invalid_email")
      else if QuestionBlank(b.question) then Rejected(400, "question_required")
      else
        Sent(Mail(Recipient, Subject(b.tourTitle), Text(b, b.email.value, b.question.value),
                  Html(b, b.email.value, b.question.value)))
  }

  /** The HTML question differs from the question only in its line breaks: split at `\n`, joined with `<br>`. */
  lemma HtmlQuestionReplacesLineBreaks(question: string)
    ensures HtmlQuestion(question) == Join(Split(question, '\n'), "<br>")
    ensures '\n' !in question ==> HtmlQuestion(question) == question
  {
    ReplaceCharIsSplitJoin(question, '\n', "<br>");
    if '\n' !in question {
      SplitNoSeparator(question, '\n');
    }
  }
}

=== FILE: tour_question_form.dfy ===
/**
 * The client state of the question form in
 * `src/components/TourQuestionForm.tsx`: e-mail validation with its inline
 * message, the submit checks, the request it posts, and the response handling.
 */
module TourQuestionForm {
  import opened Optional
  import opened Strings
  import opened I18n
  import opened Email
  import opened TourQuestionRoute

  datatype Status = Idle | Loading | Success | Failed

  /** The form's state: the three inputs, the inline e-mail message, the status and the form-level message. */
  datatype QForm = QForm(
    name: string,
    email: string,
    question: string,
    emailError: string,
    status: Status,
    errorMessage: string)

  const Initial: QForm := QForm("", "", "", "", Idle, "")

  function EmailInvalidText(lang: Locale): string {
    if lang == "de" then "Bitte geben Sie eine g\U{FC}ltige E-Mail-Adresse ein" else "Please enter a valid email address"
  }

  function QuestionRequiredText(lang: Locale): string {
    if lang == "de" then "Bitte geben Sie Ihre Frage ein" else "Please enter your question"
  }

  function FailureText(lang: Locale): string {
    if lang == "de" then "Fehler. Bitte versuchen Sie es sp\U{E4}ter erneut." else "Error. Please try again later."
  }

  /** The verdict of `validateEmail` and the inline message it leaves. */
  datatype EmailCheck = EmailCheck(ok: bool, emailError: string)

  /**
   * `validateEmail`: an empty value fails silently; a malformed one fails with
   * the invalid-address message; a well-formed one passes and clears the message.
   */
  function ValidateEmail(value: string, lang: Locale): (c: EmailCheck)
    ensures c.ok <==> IsValidEmail(value)
    ensures c.emailError == "" <==> value == "" || IsValidEmail(value)
    ensures c.emailError != "" ==> c.emailError == EmailInvalidText(lang)
  {
    EmptyIsInvalid();
    if value == "" then EmailCheck(false, "")
    else if !IsValidEmail(value) then EmailCheck(false, EmailInvalidText(lang))
    else EmailCheck(true, "")
  }

  /** Typing in the address field: the value is taken, and re-validated only while a message is shown. */
  function OnEmailInput(f: QForm, value: string, lang: Locale): (g: QForm)
    ensures g.email == value && g.(email := f.email, emailError := f.emailError) == f
    ensures f.emailError == "" ==> g.emailError == ""
    ensures f.emailError != "" ==> (g.emailError == "" <==> value == "" || IsValidEmail(value))
    ensures g.emailError != "" ==> g.emailError == EmailInvalidText(lang)
  {
    if f.emailError != "" then f.(email := value, emailError := ValidateEmail(value, lang).emailError)
    else f.(email := value)
  }

  /** Leaving the address field validates it. */
  function OnEmailBlur(f: QForm, lang: Locale): (g: QForm)
    ensures g.(emailError := f.emailError) == f
    ensures g.emailError != "" <==> f.email != "" && !IsValidEmail(f.email)
  {
    f.(emailError := ValidateEmail(f.email, lang).emailError)
  }

  /** What submitting does: stay on the form with updated messages, or post a request while loading. */
  datatype SubmitStep = Stay(form: QForm) | Send(form: QForm, request: QuestionRequest)

  /**
   * `onSubmit`: the form-level message is cleared, the address is validated
   * (a failure stops here), then a blank question sets the question-required
   * message; otherwise the status becomes loading and the request is posted
   * with the trimmed question and without an empty name.
   */
  function Submit(f: QForm, lang: Locale, tourId: string, tourTitle: string): (s: SubmitStep)
    ensures s.Send? <==> IsValidEmail(f.email) && Trim(f.question) != ""
    ensures s.form.name == f.name && s.form.email == f.email && s.form.question == f.question
    ensures !IsValidEmail(f.email) ==>
              s.form.errorMessage == "" && s.form.status == f.status
              && s.form.emailError == ValidateEmail(f.email, lang).emailError
    ensures IsValidEmail(f.email) ==> s.form.emailError == ""
    ensures IsValidEmail(f.email) && Trim(f.question) == "" ==>
              s.form.errorMessage == QuestionRequiredText(lang) && s.form.status == f.status
    ensures s.Send? ==>
              s.form.status == Loading && s.form.errorMessage == ""
              && s.request.email == Some(f.email)
              && s.request.question == Some(Trim(f.question))
              && (s.request.name.None? <==> f.name == "")
              && (s.request.name.Some? ==> s.request.name.value == f.name)
              && s.request.tourId == Some(tourId) && s.request.tourTitle == Some(tourTitle)
  {
    var cleared := f.(errorMessage := "");
    var check := ValidateEmail(f.email, lang);
    if !check.ok then Stay(cleared.(emailError := check.emailError))
    else
      var checked := cleared.(emailError := check.emailError);
      if Trim(f.question) == "" then Stay(checked.(errorMessage := QuestionRequiredText(lang)))
      else
        Send(checked.(status := Loading),
             QuestionRequest(if f.name == "" then None else Some(f.name), Some(f.email), Some(Trim(f.question)),
                             Some(tourId), Some(tourTitle)))
  }

  /**
   * The response: success (an OK status with `ok: true`) resets every input
   * and the inline message; anything else shows the failure message and
   * keeps the inputs.
   */
  function Complete(f: QForm, lang: Locale, ok: bool): (g: QForm)
    ensures ok ==> g.status == Success && g.name == "" && g.email == "" && g.question == "" && g.emailError == ""
    ensures ok ==> g.errorMessage == f.errorMessage
    ensures !ok ==> g.status == Failed && g.errorMessage == FailureText(lang)
    ensures !ok ==> g.name == f.name && g.email == f.email && g.question == f.question && g.emailError == f.emailError
  {
    if ok then f.(status := Success, name := "", email := "", question := "", emailError := "")
    else f.(status := Failed, errorMessage := FailureText(lang))
  }

  /** An address the form lets through is one the route also accepts, and so is the question: a posted request is answered with the message. */
  lemma SentRequestAccepted(f: QForm, lang: Locale, tourId: string, tourTitle: string)
    requires Submit(f, lang, tourId, tourTitle).Send?
    ensures var r := Submit(f, lang, tourId, tourTitle).request;
            Post(Some(r)).Sent? && Post(Some(r)).mail.subject == Subject(Some(tourTitle))
  {
    var r := Submit(f, lang, tourId, tourTitle).request;
    assert r.question == Some(Trim(f.question)) && Trim(f.question) != "";
    TrimIdempotent(f.question);
    assert Trim(r.question.value) != "";
    assert !QuestionBlank(r.question);
    assert Truthy(r.email) && IsValidEmail(r.email.value);
  }

  /** A successful round (submit, then an OK response) leaves the form empty, with no message, showing success. */
  lemma SuccessfulRoundClears(f: QForm, lang: Locale, tourId: string, tourTitle: string)
    requires Submit(f, lang, tourId, tourTitle).Send?
    ensures Complete(Submit(f, lang, tourId, tourTitle).form, lang, true) == Initial.(status := Success)
  {
  }

  /** While no message is shown, typing never makes one appear; only leaving the field or submitting does. */
  lemma {:induction false} TypingWithoutMessageStaysQuiet(f: QForm, values: seq<string>, lang: Locale)
    requires f.emailError == ""
    ensures TypeAll(f, values, lang).emailError == ""
    decreases |values|
  {
    if |values| > 0 {
      TypingWithoutMessageStaysQuiet(OnEmailInput(f, values[0], lang), values[1..], lang);
    }
  }

  /** The state after typing a series of values into the address field. */
  function TypeAll(f: QForm, values: seq<string>, lang: Locale): QForm
    decreases |values|
  {
    if |values| == 0 then f else TypeAll(OnEmailInput(f, values[0], lang), values[1..], lang)
  }
}

=== FILE: trip_form.dfy ===
/**
 * The client state of the trip-planning form in
 * `src/components/TripPlanningForm.tsx`: the interest selection, the label of
 * the interests button, the request body it posts, and the submit status.
 */
module TripPlanningForm {
  import opened Optional
  import opened Strings
  import opened I18n
  import opened Utm
  import opened Subscribers
  import opened TripPlanningRoute

  datatype Status = Idle | Loading | Success | Failed

  /** The form's state: the three inputs, the selected interests, the attribution read on mount, and the status. */
  datatype Form = Form(
    email: string,
    travelDate1: string,
    travelDate2: string,
    selected: seq<string>,
    utm: UtmRecord,
    status: Status)

  /** The form after mounting: empty inputs, nothing selected, idle, holding the attribution captured and read back. */
  function Mounted(storage: Storage, params: Query, t1: int, t2: int): (f: Form)
    ensures f.email == "" && f.travelDate1 == "" && f.travelDate2 == "" && f.selected == []
    ensures f.status == Idle
  {
    Form("", "", "", [], FormAttribution(storage, params, t1, t2), Idle)
  }

  /** A page URL with attribution, read back within the TTL, is the attribution the mounted form holds. */
  lemma MountedHoldsFreshCapture(storage: Storage, params: Query, t1: int, t2: int)
    requires ParseUtm(params) != map[] && 0 <= t1 && t2 <= t1 + TtlMs
    ensures Mounted(storage, params, t1, t2).utm == ParseUtm(params)
  {
    FormSeesFreshCapture(storage, params, t1, t2);
  }

  /** A page URL without attribution leaves the mounted form holding what was stored before. */
  lemma MountedKeepsEarlierCapture(storage: Storage, params: Query, t1: int, t2: int)
    requires ParseUtm(params) == map[]
    ensures Mounted(storage, params, t1, t2).utm == Read(storage, t2, true).utm
  {
    FormKeepsEarlierCapture(storage, params, t1, t2);
  }

  // ---------------------------------------------------------------------------
  // Interest selection
  // ---------------------------------------------------------------------------

  /** `xs.filter(i => i !== x)`: every occurrence of `x` removed, the rest kept in order. */
  function RemoveAll(xs: seq<string>, x: string): (ys: seq<string>)
    ensures x !in ys
    ensures forall y :: y != x ==> (y in ys <==> y in xs)
    ensures x !in xs ==> ys == xs
    ensures x in xs ==> |ys| < |xs|
  {
    if |xs| == 0 then []
    else (if xs[0] == x then [] else [xs[0]]) + RemoveAll(xs[1..], x)
  }

  /** `toggleInterest`: a selected interest is removed (every occurrence), an unselected one is appended. */
  function ToggleInterest(selected: seq<string>, interest: string): (r: seq<string>)
    ensures interest in r <==> interest !in selected
    ensures forall y :: y != interest ==> (y in r <==> y in selected)
    ensures interest !in selected ==> r == selected + [interest]
    ensures interest in selected ==> |r| < |selected|
  {
    if interest in selected then RemoveAll(selected, interest) else selected + [interest]
  }

  /** No interest is listed twice. */
  predicate NoDuplicates(xs: seq<string>) {
    forall i, j :: 0 <= i < j < |xs| ==> xs[i] != xs[j]
  }

  lemma {:induction false} RemoveAllKeepsNoDuplicates(xs: seq<string>, x: string)
    requires NoDuplicates(xs)
    ensures NoDuplicates(RemoveAll(xs, x))
    decreases |xs|
  {
    if |xs| > 0 {
      var tail := xs[1..];
      assert NoDuplicates(tail) by {
        forall i, j | 0 <= i < j < |tail|
          ensures tail[i] != tail[j]
        {
          assert tail[i] == xs[i + 1] && tail[j] == xs[j + 1];
        }
      }
      RemoveAllKeepsNoDuplicates(tail, x);
      var rest := RemoveAll(tail, x);
      if xs[0] != x {
        assert xs[0] !in tail;
        assert xs[0] !in rest;
        var ys := [xs[0]] + rest;
        forall i, j | 0 <= i < j < |ys|
          ensures ys[i] != ys[j]
        {
          if i == 0 {
            assert ys[j] in rest;
          } else {
            assert ys[i] == rest[i - 1] && ys[j] == rest[j - 1];
          }
        }
      } else {
        assert RemoveAll(xs, x) == rest;
      }
    }
  }

  /** Toggling keeps the selection free of duplicates. */
  lemma ToggleKeepsNoDuplicates(selected: seq<string>, interest: string)
    requires NoDuplicates(selected)
    ensures NoDuplicates(ToggleInterest(selected, interest))
  {
    if interest in selected {
      RemoveAllKeepsNoDuplicates(selected, interest);
    } else {
      var r := selected + [interest];
      forall i, j | 0 <= i < j < |r|
        ensures r[i] != r[j]
      {
        if j == |selected| {
          assert r[i] in selected;
        }
      }
    }
  }

  lemma {:induction false} RemoveAllAppend(a: seq<string>, b: seq<string>, x: string)
    ensures RemoveAll(a + b, x) == RemoveAll(a, x) + RemoveAll(b, x)
    decreases |a|
  {
    if |a| > 0 {
      assert (a + b)[1..] == a[1..] + b;
      RemoveAllAppend(a[1..], b, x);
    } else {
      assert a + b == b;
    }
  }

  /** Toggling an unselected interest twice restores the selection exactly. */
  lemma ToggleTwiceRestores(selected: seq<string>, interest: string)
    requires interest !in selected
    ensures ToggleInterest(ToggleInterest(selected, interest), interest) == selected
  {
    RemoveAllAppend(selected, [interest], interest);
    assert RemoveAll([interest], interest) == [];
  }

  /** Toggling only ever selects offered interests, when it is only offered interests that are toggled. */
  lemma ToggleStaysWithinOptions(selected: seq<string>, interest: string, options: seq<string>)
    requires forall y :: y in selected ==> y in options
    requires interest in options
    ensures forall y :: y in ToggleInterest(selected, interest) ==> y in options
  {
  }

  // ---------------------------------------------------------------------------
  // The interests button
  // ---------------------------------------------------------------------------

  /** The placeholder of the interests button. */
  function Placeholder(lang: Locale): string {
    if lang == "de" then "W\U{E4}hle deine Interessen (eine oder mehr)" else "Select what you're interested in"
  }

  /** The word after the count when two or more interests are selected. */
  function SelectedWord(lang: Locale): string {
    if lang == "de" then "ausgew\U{E4}hlt" else "selected"
  }

  /** The button label: the placeholder, the single interest, or `<n> ausgewählt` / `<n> selected`. */
  function SelectionLabel(selected: seq<string>, lang: Locale): (shown: string)
    ensures |selected| >= 2 ==> |shown| > 0 && '0' <= shown[0] <= '9'
    ensures |selected| >= 2 ==>
              |shown| > |SelectedWord(lang)| && shown[|shown| - |SelectedWord(lang)| - 1..] == " " + SelectedWord(lang)
  {
    if |selected| == 0 then Placeholder(lang)
    else if |selected| == 1 then selected[0]
    else NatToString(|selected|) + " " + SelectedWord(lang)
  }

  /**
   * For two or more interests the label starts with a decimal count that
   * reads back as the number selected, followed by a space and the word.
   */
  lemma SelectionLabelCounts(selected: seq<string>, lang: Locale)
    requires |selected| >= 2
    ensures var shown := SelectionLabel(selected, lang);
            var k := |NatToString(|selected|)|;
            k <= |shown|
            && (forall i :: 0 <= i < k ==> '0' <= shown[i] <= '9')
            && ParseDigits(shown[..k]) == |selected|
            && shown[k..] == " " + SelectedWord(lang)
  {
    var shown := SelectionLabel(selected, lang);
    var digits := NatToString(|selected|);
    assert shown[..|digits|] == digits;
    NatToStringRoundTrip(|selected|);
  }

  /** Zero or one selection shows the placeholder or the interest itself, never a count. */
  lemma SelectionLabelSmall(selected: seq<string>, lang: Locale)
    requires |selected| <= 1
    ensures |selected| == 0 ==> SelectionLabel(selected, lang) == Placeholder(lang)
    ensures |selected| == 1 ==> SelectionLabel(selected, lang) == selected[0]
  {
  }

  // ---------------------------------------------------------------------------
  // The request body
  // ---------------------------------------------------------------------------

  /** `s || null`. */
  function OrNull(s: string): (v: Option<string>)
    ensures v.None? <==> s == ""
    ensures v.Some? ==> v.value == s
  {
    if s == "" then None else Some(s)
  }

  /** The `interests` member: the `", "`-join of the selection, or null when that is empty. */
  function InterestsValue(selected: seq<string>): (v: Option<string>)
    ensures |selected| == 0 ==> v.None?
    ensures v.Some? ==> v.value == Join(selected, ", ") && v.value != ""
  {
    OrNull(if |selected| > 0 then Join(selected, ", ") else "")
  }

  /** Any non-empty selected interest makes the posted value non-null. */
  lemma InterestsValueNonNull(selected: seq<string>, i: nat)
    requires i < |selected| && selected[i] != ""
    ensures InterestsValue(selected).Some?
  {
    JoinKeepsPart(selected, ", ", i);
  }

  lemma {:induction false} JoinKeepsPart(parts: seq<string>, sep: string, i: nat)
    requires i < |parts|
    ensures |Join(parts, sep)| >= |parts[i]|
    decreases |parts|
  {
    if i > 0 {
      JoinKeepsPart(parts[1..], sep, i - 1);
    }
  }

  /** The attribution as the JSON object it is serialised to. */
  function UtmObject(utm: UtmRecord): (o: Object)
    ensures forall k :: k in o <==> k in utm
    ensures forall k :: k in o ==> o[k] == Str(utm[k])
  {
    map k | k in utm :: Str(utm[k])
  }

  /** The body the form posts: the address as typed, empty dates and interests as null, the locale and the attribution. */
  function RequestBody(f: Form, lang: Locale): (b: TripRequest)
    ensures b.email == Some(f.email)
    ensures b.travelDate1.None? <==> f.travelDate1 == ""
    ensures b.travelDate2.None? <==> f.travelDate2 == ""
    ensures b.travelDate1.Some? ==> b.travelDate1.value == f.travelDate1
    ensures b.travelDate2.Some? ==> b.travelDate2.value == f.travelDate2
    ensures b.interests == InterestsValue(f.selected)
    ensures b.locale == Some(lang)
    ensures b.utm.Some? && forall k :: k in b.utm.value <==> k in f.utm
    ensures b.utm.Some? && forall k :: k in f.utm ==> b.utm.value[k] == Str(f.utm[k])
  {
    TripRequest(Some(f.email), OrNull(f.travelDate1), OrNull(f.travelDate2), InterestsValue(f.selected),
                Some(lang), Some(UtmObject(f.utm)))
  }

  // ---------------------------------------------------------------------------
  // Submitting
  // ---------------------------------------------------------------------------

  /** The submit button is enabled unless a request is in flight. */
  predicate SubmitEnabled(f: Form) {
    f.status != Loading
  }

  /** Submitting: the status becomes loading; nothing else changes. */
  function Begin(f: Form): (g: Form)
    ensures g.status == Loading && !SubmitEnabled(g)
    ensures g.(status := f.status) == f
  {
    f.(status := Loading)
  }

  /**
   * The response: success clears the inputs and the selection (the
   * attribution stays); any failure keeps every input and shows the error.
   */
  function Finish(f: Form, ok: bool): (g: Form)
    ensures SubmitEnabled(g)
    ensures ok ==> g.status == Success && g.email == "" && g.travelDate1 == "" && g.travelDate2 == "" && g.selected == []
    ensures ok ==> g.utm == f.utm
    ensures !ok ==> g.status == Failed && g.(status := f.status) == f
  {
    if ok then Form("", "", "", [], f.utm, Success) else f.(status := Failed)
  }

  /** After a successful submission the form is as freshly mounted with the same attribution, apart from the status. */
  lemma SuccessResetsToMounted(f: Form, storage: Storage, params: Query, t1: int, t2: int)
    requires f.utm == FormAttribution(storage, params, t1, t2)
    ensures Finish(Begin(f), true).(status := Idle) == Mounted(storage, params, t1, t2)
  {
  }

  /** A failed submission leaves the inputs as they were, so submitting again posts the same body. */
  lemma FailureResendsSameBody(f: Form, lang: Locale)
    ensures RequestBody(Finish(Begin(f), false), lang) == RequestBody(f, lang)
  {
  }

  // ---------------------------------------------------------------------------
  // From the form to the route
  // ---------------------------------------------------------------------------

  /**
   * The form sends the attribution keys as stored (`utm_source`, ...), and the
   * route prefixes every key with `utm_` once more: an accepted submission
   * carries the form's `utm_source` under the field `utm_utm_source`.
   */
  lemma FormUtmSourceArrivesDoublePrefixed(f: Form, lang: Locale, env: Env)
    requires "utm_source" in f.utm && f.utm["utm_source"] != ""
    requires Post(Some(RequestBody(f, lang)), env).Submitted?
    ensures var s := Post(Some(RequestBody(f, lang)), env).subscriber;
            s.fields.Some? && "utm_utm_source" in s.fields.value
            && s.fields.value["utm_utm_source"] == Str(f.utm["utm_source"])
  {
    var body := RequestBody(f, lang);
    assert body.utm.value["utm_source"] == Str(f.utm["utm_source"]);
    SubmittedCarriesUtm(body, env, "utm_source");
    DoublePrefix();
  }

  lemma DoublePrefix()
    ensures UtmFieldName("utm_source") == "utm_utm_source"
  {
  }

  /** The interests the form selected reach the route's `interests` field exactly when the posted value is non-null. */
  lemma FormInterestsReachField(f: Form, lang: Locale)
    ensures var fields := FixedFields(RequestBody(f, lang));
            ("interests" in fields <==> InterestsValue(f.selected).Some?)
            && ("interests" in fields ==> fields["interests"] == Str(Join(f.selected, ", ")))
  {
  }
}

=== FILE: trip_planning.dfy ===
/** The `POST /api/trip-planning` handler of `src/app/api/trip-planning/route.ts`. */
module TripPlanningRoute {
  import opened Optional
  import opened Strings
  import opened Email
  import opened Subscribers

  /** The JSON body; every member may be missing or null. */
  datatype TripRequest = TripRequest(
    email: Option<string>,
    travelDate1: Option<string>,
    travelDate2: Option<string>,
    interests: Option<string>,
    locale: Option<string>,
    utm: Option<Object>)

  const MaxEmailLength: int := 254
  const MaxDateLength: int := 50
  const MaxInterestsLength: int := 1000

  /** The stored form of the address: trimmed and lower-cased. */
  function NormalizeEmail(email: string): (n: string)
    ensures |n| == |Trim(email)| <= |email|
    ensures forall i :: 0 <= i < |n| ==> n[i] == LowerChar(Trim(email)[i])
    ensures forall i :: 0 <= i < |n| ==> !('A' <= n[i] <= 'Z')
    ensures n == [] || (!IsJsSpace(n[0]) && !IsJsSpace(n[|n| - 1]))
  {
    ToLower(Trim(email))
  }

  /** A truthy string longer than `limit`. */
  predicate TooLong(s: Option<string>, limit: int) {
    Truthy(s) && |s.value| > limit
  }

  /** The validation verdict, in the order the handler checks. */
  function Validate(body: TripRequest, env: Env): (r: Option<Outcome>)
    ensures !(Truthy(body.email) && IsValidEmail(body.email.value)) ==> r == Some(Rejected(400, "invalid_email"))
    ensures r.None? <==>
              Truthy(body.email) && IsValidEmail(body.email.value)
              && |NormalizeEmail(body.email.value)| <= 254
              && !TooLong(body.travelDate1, 50) && !TooLong(body.travelDate2, 50) && !TooLong(body.interests, 1000)
              && Truthy(env.apiToken)
    ensures r.Some? ==> r.value.Rejected?
    ensures r.Some? && r.value.error == "invalid_input" ==>
              TooLong(body.travelDate1, 50) || TooLong(body.travelDate2, 50) || TooLong(body.interests, 1000)
    ensures r.Some? && r.value.error == "server_error" ==> !Truthy(env.apiToken) && r.value.status == 500
    ensures Truthy(body.email) && IsValidEmail(body.email.value) && |NormalizeEmail(body.email.value)| > 254 ==>
              r == Some(Rejected(400, "invalid_email"))
    ensures Truthy(body.email) && IsValidEmail(body.email.value) && |NormalizeEmail(body.email.value)| <= 254
            && (TooLong(body.travelDate1, 50) || TooLong(body.travelDate2, 50) || TooLong(body.interests, 1000)) ==>
              r == Some(Rejected(400, "invalid_input"))
    ensures Truthy(body.email) && IsValidEmail(body.email.value) && |NormalizeEmail(body.email.value)| <= 254
            && !TooLong(body.travelDate1, 50) && !TooLong(body.travelDate2, 50) && !TooLong(body.interests, 1000)
            && !Truthy(env.apiToken) ==>
              r == Some(Rejected(500, "server_error"))
  {
    if !Truthy(body.email) || !IsValidEmail(body.email.value) then Some(Rejected(400, "invalid_email"))
    else if |NormalizeEmail(body.email.value)| > MaxEmailLength then Some(Rejected(400, "invalid_email"))
    else if TooLong(body.travelDate1, MaxDateLength) then Some(Rejected(400, "invalid_input"))
    else if TooLong(body.travelDate2, MaxDateLength) then Some(Rejected(400, "invalid_input"))
    else if TooLong(body.interests, MaxInterestsLength) then Some(Rejected(400, "invalid_input"))
    else if !Truthy(env.apiToken) then Some(Rejected(500, "server_error"))
    else None
  }

  /** The names of the fixed custom fields. */
  predicate IsFixedField(k: string) {
    k == "travel_date_1" || k == "travel_date_2" || k == "interests" || k == "locale"
  }

  /** No fixed field name starts with `utm_`. */
  lemma FixedNotUtm(k: string)
    requires IsFixedField(k)
    ensures !(|k| >= 4 && k[..4] == "utm_")
  {
    assert k[3] != '_';
  }

  /** The fixed custom fields: each one present exactly when its request member is truthy. */
  function FixedFields(body: TripRequest): (fields: Object)
    ensures forall k :: k in fields ==> IsFixedField(k)
    ensures "travel_date_1" in fields <==> Truthy(body.travelDate1)
    ensures "travel_date_2" in fields <==> Truthy(body.travelDate2)
    ensures "interests" in fields <==> Truthy(body.interests)
    ensures "locale" in fields <==> Truthy(body.locale)
    ensures "travel_date_1" in fields ==> fields["travel_date_1"] == Str(body.travelDate1.value)
    ensures "travel_date_2" in fields ==> fields["travel_date_2"] == Str(body.travelDate2.value)
    ensures "interests" in fields ==> fields["interests"] == Str(body.interests.value)
    ensures "locale" in fields ==> fields["locale"] == Str(body.locale.value)
  {
    var f0: Object := map[];
    var f1 := if Truthy(body.travelDate1) then f0["travel_date_1" := Str(body.travelDate1.value)] else f0;
    var f2 := if Truthy(body.travelDate2) then f1["travel_date_2" := Str(body.travelDate2.value)] else f1;
    var f3 := if Truthy(body.interests) then f2["interests" := Str(body.interests.value)] else f2;
    if Truthy(body.locale) then f3["locale" := Str(body.locale.value)] else f3
  }

  /** The `fields` object: the fixed fields, then the `utm_*` fields; the two never share a name. */
  function TripFields(body: TripRequest): (fields: Object)
    ensures forall k :: k in fields <==> k in FixedFields(body) || k in UtmFields(body.utm)
    ensures forall k :: k in FixedFields(body) ==> fields[k] == FixedFields(body)[k]
    ensures forall k :: k in UtmFields(body.utm) ==> fields[k] == UtmFields(body.utm)[k]
  {
    var fixed := FixedFields(body);
    var utm := UtmFields(body.utm);
    forall k | k in fixed
      ensures k !in utm
    {
      FixedNotUtm(k);
    }
    fixed + utm
  }

  /**
   * `POST`: a body that is not JSON is a server error; otherwise validation,
   * then the subscriber with the normalized address, status `active`, the
   * configured group and the non-empty `fields`.
   */
  function Post(body: Option<TripRequest>, env: Env): (o: Outcome)
    ensures body.None? ==> o == Rejected(500, "server_error")
    ensures body.Some? && Validate(body.value, env).Some? ==> o == Validate(body.value, env).value
    ensures o.Submitted? <==> body.Some? && Validate(body.value, env).None?
    ensures o.Submitted? ==>
              body.Some? && Validate(body.value, env).None?
              && o.subscriber == MakeSubscriber(NormalizeEmail(body.value.email.value), env, TripFields(body.value))
  {
    match body
    case None => Rejected(500, "server_error")
    case Some(b) =>
      match Validate(b, env)
      case Some(rejection) => rejection
      case None => Submitted(MakeSubscriber(NormalizeEmail(b.email.value), env, TripFields(b)))
  }

  /** For a valid address normalizing only lower-cases: the trim has nothing to remove, and the length is kept. */
  lemma NormalizeKeepsLength(email: string)
    requires IsValidEmail(email)
    ensures NormalizeEmail(email) == ToLower(email)
    ensures |NormalizeEmail(email)| == |email|
  {
    ValidEmailIsTrimmed(email);
  }

  /** A submitted subscriber carries each truthy UTM entry as its `utm_` field, verbatim. */
  lemma SubmittedCarriesUtm(body: TripRequest, env: Env, key: string)
    requires Post(Some(body), env).Submitted?
    requires body.utm.Some? && key in body.utm.value && IsTruthy(body.utm.value[key])
    ensures var s := Post(Some(body), env).subscriber;
            s.fields.Some? && UtmFieldName(key) in s.fields.value
            && s.fields.value[UtmFieldName(key)] == body.utm.value[key]
  {
  }
}

=== FILE: utm.dfy ===
/** UTM attribution capture and its time-limited local store, `src/lib/utm.ts`. */
module Utm {
  import opened Optional

  /** The `UTM` object: a value for some of the five attribution keys. */
  type UtmRecord = map<string, string>

  /** The attribution keys, in the order the parser visits them. */
  const UtmKeys: seq<string> := ["utm_source", "utm_medium", "utm_campaign", "utm_term", "utm_content"]

  /** The local-storage key under which the record is kept. */
  const StorageKey: string := "madeira360_utm"

  const TtlDays: int := 30

  /** The time to live in milliseconds: 30 days, 2 592 000 000 ms. */
  const TtlMs: int := TtlDays * 24 * 60 * 60 * 1000

  /**
   * One local-storage value as `getStoredUtm` sees it after `JSON.parse`:
   * text that does not parse, or an object whose `utm` and `expiresAt`
   * members may each be missing.
   */
  datatype Entry = Unparsable | Payload(utm: Option<UtmRecord>, expiresAt: Option<int>)

  /** The browser's local storage for this origin. */
  type Storage = map<string, Entry>

  /** The query parameters of the page URL: the first value of each name. */
  type Query = map<string, string>

  /** The keys of `keys` that the query carries with a non-empty value, with those values. */
  function ParseKeys(params: Query, keys: seq<string>): (utm: UtmRecord)
    ensures forall k :: k in utm <==> k in keys && k in params && params[k] != ""
    ensures forall k :: k in utm ==> utm[k] == params[k]
  {
    if |keys| == 0 then map[]
    else
      var utm := ParseKeys(params, keys[..|keys| - 1]);
      var k := keys[|keys| - 1];
      if k in params && params[k] != "" then utm[k := params[k]] else utm
  }

  /** `parseUtmFromSearchParams`: only the five keys, each only when its value is non-empty. */
  function ParseUtm(params: Query): (utm: UtmRecord)
    ensures forall k :: k in utm <==> k in UtmKeys && k in params && params[k] != ""
    ensures forall k :: k in utm ==> utm[k] == params[k] && utm[k] != ""
  {
    ParseKeys(params, UtmKeys)
  }

  /** `Object.values(utm).some(Boolean)`. */
  predicate HasAny(utm: UtmRecord) {
    exists k :: k in utm && utm[k] != ""
  }

  /**
   * `storeUtm`: on the server (`hasWindow` false) or for a record without a
   * non-empty value nothing happens; otherwise the record overwrites the
   * stored one with an expiry 30 days from `now`.
   */
  function Store(storage: Storage, utm: UtmRecord, now: int, hasWindow: bool): (s: Storage)
    ensures !hasWindow || !HasAny(utm) ==> s == storage
    ensures hasWindow && HasAny(utm) ==> s.Keys == storage.Keys + {StorageKey}
    ensures hasWindow && HasAny(utm) ==> s[StorageKey] == Payload(Some(utm), Some(now + 2592000000))
    ensures forall k :: k in storage && k != StorageKey ==> k in s && s[k] == storage[k]
  {
    if !hasWindow || !HasAny(utm) then storage
    else storage[StorageKey := Payload(Some(utm), Some(now + TtlMs))]
  }

  datatype ReadResult = ReadResult(utm: UtmRecord, storage: Storage)

  /** An entry that `getStoredUtm` treats as a record: `utm` present and `expiresAt` present and non-zero. */
  predicate Usable(e: Entry) {
    e.Payload? && e.utm.Some? && e.expiresAt.Some? && e.expiresAt.value != 0
  }

  /**
   * `getStoredUtm` at time `now`: the stored record while `now <= expiresAt`;
   * an expired record reads as empty and is removed; anything unusable reads
   * as empty and stays.
   */
  function Read(storage: Storage, now: int, hasWindow: bool): (r: ReadResult)
    ensures r.storage == storage || r.storage == storage - {StorageKey}
    ensures r.storage != storage ==>
              StorageKey in storage && Usable(storage[StorageKey]) && storage[StorageKey].expiresAt.value < now
    ensures hasWindow && StorageKey in storage && Usable(storage[StorageKey]) && storage[StorageKey].expiresAt.value < now ==>
              r.utm == map[] && StorageKey !in r.storage
    ensures r.utm != map[] ==>
              hasWindow && StorageKey in storage && Usable(storage[StorageKey])
              && now <= storage[StorageKey].expiresAt.value && r.utm == storage[StorageKey].utm.value
    ensures !hasWindow || StorageKey !in storage || !Usable(storage[StorageKey]) ==> r == ReadResult(map[], storage)
    ensures hasWindow && StorageKey in storage && Usable(storage[StorageKey]) && now <= storage[StorageKey].expiresAt.value ==>
              r == ReadResult(storage[StorageKey].utm.value, storage)
  {
    if !hasWindow || StorageKey !in storage then ReadResult(map[], storage)
    else
      var e := storage[StorageKey];
      if !Usable(e) then ReadResult(map[], storage)
      else if e.expiresAt.value < now then ReadResult(map[], storage - {StorageKey})
      else ReadResult(e.utm.value, storage)
  }

  datatype Capture = Capture(utm: UtmRecord, storage: Storage)

  /** `captureUtmFromUrl`: parses the page's query and stores it by `Store`'s rules; returns what it parsed. */
  function CaptureFromUrl(storage: Storage, params: Query, now: int, hasWindow: bool): (c: Capture)
    ensures hasWindow ==> c.utm == ParseUtm(params)
    ensures !hasWindow ==> c == Capture(map[], storage)
    ensures c.storage == Store(storage, c.utm, now, hasWindow)
  {
    if !hasWindow then Capture(map[], storage)
    else
      var utm := ParseUtm(params);
      Capture(utm, Store(storage, utm, now, true))
  }

  /** The attribution a lead form holds after mounting: capture at `t1`, then read at `t2`. */
  function FormAttribution(storage: Storage, params: Query, t1: int, t2: int): UtmRecord {
    Read(CaptureFromUrl(storage, params, t1, true).storage, t2, true).utm
  }

  // ---------------------------------------------------------------------------
  // Lemmas
  // ---------------------------------------------------------------------------

  /** Round trip: a stored record reads back unchanged at any time up to its expiry. */
  lemma StoreThenRead(storage: Storage, utm: UtmRecord, now: int, t: int)
    requires HasAny(utm)
    requires now >= 0
    requires t <= now + TtlMs
    ensures Read(Store(storage, utm, now, true), t, true) == ReadResult(utm, Store(storage, utm, now, true))
  {
  }

  /** After expiry the record reads as empty and is gone from storage. */
  lemma StoreThenReadExpired(storage: Storage, utm: UtmRecord, now: int, t: int)
    requires HasAny(utm)
    requires now >= 0
    requires t > now + TtlMs
    ensures var r := Read(Store(storage, utm, now, true), t, true);
            r.utm == map[] && StorageKey !in r.storage
  {
  }

  /** The last write wins: storing twice leaves only the second record. */
  lemma LastWriteWins(storage: Storage, u1: UtmRecord, u2: UtmRecord, t1: int, t2: int)
    requires HasAny(u2)
    ensures Store(Store(storage, u1, t1, true), u2, t2, true) == Store(storage, u2, t2, true)
  {
  }

  /** A parsed record has a non-empty value exactly when it has any key. */
  lemma ParsedHasAnyIffNonEmpty(params: Query)
    ensures HasAny(ParseUtm(params)) <==> ParseUtm(params) != map[]
  {
    var u := ParseUtm(params);
    if u != map[] {
      var k :| k in u;
      assert u[k] != "";
    }
  }

  /** A page URL with attribution makes the form hold exactly that attribution, read within the TTL. */
  lemma FormSeesFreshCapture(storage: Storage, params: Query, t1: int, t2: int)
    requires ParseUtm(params) != map[]
    requires 0 <= t1 && t2 <= t1 + TtlMs
    ensures FormAttribution(storage, params, t1, t2) == ParseUtm(params)
  {
    ParsedHasAnyIffNonEmpty(params);
    StoreThenRead(storage, ParseUtm(params), t1, t2);
  }

  /** A page URL without attribution leaves the earlier stored attribution in force. */
  lemma FormKeepsEarlierCapture(storage: Storage, params: Query, t1: int, t2: int)
    requires ParseUtm(params) == map[]
    ensures FormAttribution(storage, params, t1, t2) == Read(storage, t2, true).utm
  {
    ParsedHasAnyIffNonEmpty(params);
  }
}
